=== FILE: README.md ===
# Project_VA tracking core in Dafny

Project_VA classifies human actions in video. Each frame goes through the
same steps:

1. Foreground contours give a motion centroid.
2. The centroid sets a horizontal window for a person detector.
3. The detector's boxes are filtered and fused with the centroid into a
   tracked box.
4. Between detections, the tracked box is moved by dead reckoning.
5. The foreground mask inside the tracked box becomes a short shape
   descriptor: row and column histograms, normalised and quantised.
6. A bank of hidden Markov models scores that descriptor.

This project models those steps as pure Dafny functions and proves
properties of them. OpenCV, the video and the models' likelihoods stay
outside: their results are inputs.

| file | module | models |
|---|---|---|
| geometry.dfy | `Geometry` | `cv::Rect` with its `&` operator, the bounds test `IsInBounds`, `sign`, C++ halving |
| motion.dfy | `Motion` | the contour bounds test, the largest-contour scan, the weighted centroid with its `uint32` weight, the detector window and crop |
| detection.dfy | `Detection` | the filter that drops nested candidates, and the closest-centre fusion |
| tracker.dfy | `Tracker` | the state `closestRect` / `predictionVect`, the one-in-four detection cadence, adoption and dead reckoning |
| features.dfy | `Features` | `roundToTen`, `sumToOne`, `quantize`, the row/column histograms, `computeFeatureVector`, `computeFeatureVector2` |
| analyzer.dfy | `Analyzer` | one call of `processFrame`, and a run over many frames |
| classifier.dfy | `Classifier` | `HMMTester`: `testingHMM`, `getClassification`, `countFrame` |
| legacy.dfy | `Legacy` | the older per-frame loop `processVideo` of main.cpp |

Conventions:

- A contour is a `Blob`. It holds its moment centroid, or `None` when `m00`
  is zero, and twice its area. `contourArea` of an integer polygon is a
  multiple of one half, so twice the area is exact.
- C++ operators are written out where they differ from Dafny's:
  - `int()` truncates toward zero (`Motion.Trunc`);
  - `/ 2` truncates toward zero (`Geometry.Half`);
  - `% 10` can be negative (`Features.CppRem10`);
  - `uint32` wraps (`Motion.U32`);
  - `size_t` wraps (`Classifier.SizeT`).
- An out-of-range `std::vector` index, which is undefined behaviour, and
  an out-of-range `cv::Mat` row or column, which makes OpenCV throw, are
  explicit outcomes: `Undefined` or `OutOfRange`. A variable
  read while uninitialised is a parameter (`indeterminate`).

Behaviours of the code worth knowing:

- The weighted centroid divides by the number of ALL contours plus two,
  not by the number of in-bounds ones. Contours dropped by the bounds test
  pull the centroid toward the origin (`Motion.DroppedContourDilutesCentroid`).
- `quantize` reads overlapping runs. Bin `i` takes entry `i` plus the run
  that starts at `1 + i * (s - 1)`, where `s = n / newDim`. It does not
  preserve the histogram's mass (`Features.QuantizeDoesNotPreserveMass`).
- Detector boxes are not moved into frame coordinates before fusion. The
  tracked box stays in crop coordinates, and its centre is compared with
  the frame-coordinate centroid. The crop offset is used only for drawing.
- The classifier starts its best score at `DBL_MIN`, the smallest positive
  normalised double. When every log-likelihood is negative, model 0 is reported.
- `largestArea` is an `int`, so only the stored maximum is truncated, not
  the areas compared with it. A later contour whose area equals a
  half-integer maximum replaces it, while one equal to a whole-number
  maximum does not (`Motion.LargestScanTieBreak`).

## Model

| member | source | states |
|---|---|---|
| Geometry.IsInBounds | FrameAnalyzer.h:20-22 | the test written with `<` only holds exactly when lo <= v <= hi |
| Geometry.Sign | FrameAnalyzer.h:24-26 | the sign is 1, 0 or -1 exactly when the value is positive, zero or negative |
| Geometry.SignIsOdd | FrameAnalyzer.h:24-26 | sign(-v) = -sign(v), and sign(v) times abs(v) gives v back |
| Geometry.Half | FrameAnalyzer.cpp:254-259 | integer halving rounds toward zero: remainder 0 or 1 for non-negative values, 0 or -1 for negative ones |
| Geometry.InsideOfIsContainment | FrameAnalyzer.cpp:238 | `(r & s) == r` is geometric containment for boxes of positive extent; it always holds for the empty `Rect()`, and never for other boxes without extent |
| Motion.Trunc | FrameAnalyzer.cpp:167-168 | `int()` of a double is within one unit of it, on the side of zero |
| Motion.CentroidInFrameIff | FrameAnalyzer.cpp:164-168 | a contour is kept exactly when it has a centroid whose truncated coordinates are in [0, 640] x [0, 480] |
| Motion.InBounds | FrameAnalyzer.cpp:163-175 | the kept list is non-empty exactly when some contour passes, and when all pass it has one entry per contour, holding that contour's truncated centroid |
| Motion.InBoundsPositions | FrameAnalyzer.cpp:163-175 | every passing contour's truncated centroid sits in the kept list at the position given by the number of passing contours before it, so the list keeps the contours' order |
| Motion.LargestScan | FrameAnalyzer.cpp:178-186 | the index returned points at a maximal area; it is -1 exactly for an empty list; for whole areas it is the first maximum |
| Motion.LargestScanTieBreak | FrameAnalyzer.cpp:178-186 | among contours of maximal area the scan keeps the first when the maximum is a whole number and the last when it is a half-integer |
| Motion.LargestScanTieOnHalfArea | FrameAnalyzer.cpp:181-185 | areas 2.5 and 2.5 select the second contour, because the stored maximum 2.5 is truncated to 2 and the second 2.5 exceeds it; areas 2.5 then 2, and 2 and 2, select the first |
| Motion.LargestIsKeptAndMaximal | FrameAnalyzer.cpp:178-195 | the weighted contour is an in-bounds one and no in-bounds contour has a larger area |
| Motion.MotionCentroid | FrameAnalyzer.cpp:160-198 | no contours, and no contour in bounds, are two separate outcomes, told apart exactly by the contour list |
| Motion.U32 | FrameAnalyzer.cpp:194-198 | the `uint32` value lies in [0, 2^32), differs from the exact value by a multiple of 2^32, and equals it when it already fits |
| Motion.WeightedMean | FrameAnalyzer.cpp:194-198 | the mean is the floor of the wrapped weighted total divided by the number of contours plus two: divisor * r <= total < divisor * (r + 1) |
| Motion.WeightedMeanBounds | FrameAnalyzer.cpp:194-198 | while the `uint32` weight does not wrap, the weighted mean stays between 0 and the largest coordinate; with no dropped contour it is at least the smallest |
| Motion.CentroidInsideFrame | FrameAnalyzer.cpp:194-198 | a computed centroid lies inside the 640 x 480 frame |
| Motion.CentroidBetweenKept | FrameAnalyzer.cpp:194-198 | when every contour is in bounds, the centroid lies in every box that holds all contour centroids |
| Motion.OneKeptCentroid | FrameAnalyzer.cpp:194-198 | with one kept contour among n, the centroid is three times its coordinates divided by n + 2 |
| Motion.SingleContourCentroid | FrameAnalyzer.cpp:160-198 | a single in-bounds contour is its own centroid |
| Motion.DroppedContourDilutesCentroid | FrameAnalyzer.cpp:194-198 | a contour at (100, 100) plus a degenerate one yields (75, 75): the dropped contour still counts in the divisor |
| Motion.RoiAround | FrameAnalyzer.cpp:202-208 | the window is the centroid +-125 clamped to [0, 640]; its left edge is 0 or centroid - 125, its right edge is 640 or centroid + 125, and it is 250 wide away from the edges |
| Motion.UpdateCrop | FrameAnalyzer.cpp:210-215 | an in-bounds centroid cuts a new full-height crop spanning [max(x - 125, 0), min(x + 125, 640)]; otherwise the previous crop is kept |
| Geometry.Intersect | FrameAnalyzer.cpp:238 | `&` gives the empty `Rect()` or a box of positive extent contained in both operands, and it is non-empty for overlapping boxes of positive extent |
| Detection.FilterContained | FrameAnalyzer.cpp:234-242 | the filtered list is no longer than the detector's list and holds only its boxes |
| Detection.FindContainer | FrameAnalyzer.cpp:235-241 | the inner scan stops at another candidate containing candidate i; it runs to the end exactly when i survives |
| Detection.FilterNested | FrameAnalyzer.cpp:234-242 | the nested loops return exactly the filter's result |
| Detection.FilterKeepsExactlySurvivors | FrameAnalyzer.cpp:234-242 | the filter keeps, in detector order, exactly the candidates that no other candidate contains |
| Detection.FilteredAllSurvive | FrameAnalyzer.cpp:234-242 | no returned box lies inside another returned box |
| Detection.FilterOfSurvivorsIsIdentity | FrameAnalyzer.cpp:234-242 | when no candidate lies inside another, every index is kept |
| Detection.FilterIdempotent | FrameAnalyzer.cpp:234-242 | filtering twice gives the same boxes as filtering once |
| Detection.DuplicateBoxesBothDropped | FrameAnalyzer.cpp:236-239 | a box reported twice disappears altogether |
| Detection.NestedBoxDropped | FrameAnalyzer.cpp:234-242 | for any box of positive extent nested in a different box, the nested one is dropped and the outer one kept |
| Detection.PersonBoxKeepsOuter | FrameAnalyzer.cpp:234-242 | a 50 x 50 box inside a 100 x 200 person box leaves only the person box |
| Detection.Center | FrameAnalyzer.cpp:254-259 | the centre of a box of non-negative extent lies inside it, at most half a pixel before the middle on each axis |
| Detection.Closest | FrameAnalyzer.cpp:251-266 | the fused candidate is at minimal distance from the centroid and strictly closer than every earlier candidate |
| Detection.FirstClosestUnique | FrameAnalyzer.cpp:251-266 | that characterisation admits one index only, so the fusion depends on nothing else |
| Detection.FusionPicksNearCandidate | FrameAnalyzer.cpp:251-266 | of two candidates, the one whose centre is near the centroid is chosen |
| Detection.FusionTieKeepsFirst | FrameAnalyzer.cpp:262-265 | of two equidistant candidates, the first is kept |
| Tracker.DetectionCadence | FrameAnalyzer.cpp:222 | detection frames repeat every four frames: exactly one of any four consecutive frames is one |
| Tracker.Adopt | FrameAnalyzer.cpp:268-273 | the detected box replaces the tracked one; the prediction is a unit step in the direction of movement on each axis, and zero on an axis with no movement |
| Tracker.DeadReckon | FrameAnalyzer.cpp:279-297 | without a detection the origin moves by the prediction, and size and prediction are kept |
| Tracker.Step | FrameAnalyzer.cpp:222-297 | on a detection frame with a surviving candidate, the box becomes the first closest surviving candidate, which is one of the detector's boxes; on any other frame it is dead reckoning |
| Tracker.FilteredComeFromCandidates | FrameAnalyzer.cpp:234-253 | every filtered box is one of the detector's boxes |
| Tracker.CoastMovesLinearly | FrameAnalyzer.cpp:289-296 | k frames of dead reckoning move the origin by k times the prediction and change nothing else |
| Tracker.RunWithoutDetectionCoasts | FrameAnalyzer.cpp:222-297 | frames without a surviving detection are pure dead reckoning |
| Tracker.NoBoxBeforeFirstDetection | FrameAnalyzer.h:58-62 | before the first detection, the state stays the default box with zero area and zero prediction |
| Tracker.RunKeepsUnitPrediction | FrameAnalyzer.cpp:270-271 | the prediction stays within -1..1 on both axes across any run |
| Tracker.RunKeepsExtent | FrameAnalyzer.cpp:268-297 | if the detector never reports negative sizes, the tracked box never has negative width, height or area |
| Tracker.ThreeCoastingFrames | FrameAnalyzer.cpp:289-296 | a right-moving box with no detection for three frames ends three pixels to the right |
| Analyzer.NextState | FrameAnalyzer.cpp:202-273 | the window's left edge follows a defined centroid, and the crop is the one cut for that centroid: the clamped window when the centroid is in the frame, the previous crop otherwise; a crop inside the frame stays inside it; an adopted box is one of the detector's boxes and the drawing offset becomes the window edge, while without adoption the offset is kept; a frame without a centroid changes neither window nor crop |
| Analyzer.Conclude | FrameAnalyzer.cpp:301-313 | a descriptor exists exactly when the box has positive area; it then has ten entries in [0, 1]; the frame is undefined exactly when that box's rounded region leaves the mask |
| Analyzer.ProcessFrame | FrameAnalyzer.cpp:160-313 | the frame is undefined exactly when no centroid is in bounds or the positive-area box's rounded region leaves the mask; otherwise the whole carried state (box, prediction, window edge, drawing offset and crop) is the state after the tracker step and window update, and the descriptor of the box, ten values in [0, 1], comes with it exactly when its area is positive |
| Analyzer.ProcessFrameKeepsCropInFrame | FrameAnalyzer.cpp:202-215 | the crop handed to the detector always lies in the frame and is at most 250 wide, for any number of contours |
| Analyzer.RunKeepsCropInFrame | FrameAnalyzer.cpp:202-215 | over any run of frames, the crop stays in the frame |
| Analyzer.NoContoursKeepsWindow | FrameAnalyzer.cpp:160-216 | a frame without contours keeps the previous window and crop |
| Analyzer.NoFeaturesBeforeFirstDetection | FrameAnalyzer.cpp:279-313 | until the first surviving detection, the box stays the default one and no descriptor is produced |
| Analyzer.DetectionYieldsFeatures | FrameAnalyzer.cpp:247-313 | a detection frame whose surviving candidates have positive area inside the mask yields the descriptor of the adopted box |
| Features.CppRem10 | utils.h:69 | the C++ remainder has the dividend's sign and differs from it by a multiple of ten |
| Features.RoundToTen | utils.h:68-74 | the result is a multiple of ten; non-negative values round half up to the nearest multiple; negative values move toward zero |
| Features.RoundToTenExamples | utils.h:63-74 | 143 gives 140, 79 gives 80, 145 gives 150, -147 gives -140 |
| Features.RoundToTenFixesMultiples | utils.h:68-74 | multiples of ten are unchanged, and rounding twice equals rounding once |
| Features.SumToOne | utils.h:57-60 | a histogram with total zero is returned unchanged; otherwise each entry is divided by the total, the result sums to one, and non-negative entries land in [0, 1] |
| Features.NormalisedSumIsOne | utils.h:57-60 | dividing by a non-zero total gives a histogram summing to one |
| Features.NormalisedInUnitRange | utils.h:57-60 | dividing a non-negative histogram by its total gives entries in [0, 1] |
| Features.QuantizeInPlace | utils.h:39-49 | the in-place loops compute `Quantize`: bin i is entry i plus the run at 1 + i(s - 1), zero-padded to the new length |
| Features.AccumulateBin | utils.h:42-47 | one outer iteration sets bin i to its definition, leaves every other entry alone, and leaves the read cursor at the next run |
| Features.Resize | utils.h:48 | the resize keeps the first entries and pads with zeros |
| Features.QuantizeReadsInside | utils.h:42-46 | the runs read never go past the histogram's end |
| Features.QuantizeOnlyResizes | utils.h:39-49 | when the histogram is shorter than twice newDim, no run is read and quantizing only truncates or zero-pads |
| Features.FirstBinIsPrefix | utils.h:39-49 | the first bin is the sum of the first n / newDim entries |
| Features.QuantizeConstant | utils.h:39-49 | a constant histogram quantises to bins of s times the constant |
| Features.HundredUniformEntriesToFiveBins | utils.h:39-49 | a hundred entries of 0.01 give five bins of 0.2 |
| Features.OverlappingBins | utils.h:42-46 | [0, 1, 0, 0] into two bins gives [1, 1]: the single non-zero entry is read twice |
| Features.QuantizeDoesNotPreserveMass | utils.h:39-49 | a histogram of mass 1 quantises to one of mass 2 |
| Features.BinWithinTotal | utils.h:39-49 | every bin of a non-negative histogram lies between zero and the histogram's total |
| Features.CountTrueIsCardinality | utils.h:106-110 | the pixel count of a row equals the number of lit positions in it |
| Features.RowHistogram | utils.h:103-107 | entry i is the number of foreground pixels of row from + i |
| Features.ColumnHistogram | utils.h:104-110 | entry i is the number of rows whose pixel in column from + i is foreground |
| Features.NormalisedBins | utils.h:121-127 | normalising and quantising yields newDim values in [0, 1] |
| Features.FeatureVector | utils.h:90-132 | the descriptor exists exactly when both rounded sizes are non-negative and each non-zero one stays in the mask; it is then the normalised, quantised histogram of the rows from max(y, 0) followed by that of the columns from max(x, 0), 2 * (bins / 2) values in [0, 1] |
| Features.FeatureVector2 | utils.h:148-187 | the whole-mask descriptor is the normalised, quantised histogram of all rows followed by that of all columns, 2 * (bins / 2) values in [0, 1] |
| Features.WholeMaskIsCoveringBox | utils.h:90-187 | for a mask whose sides are multiples of ten, the whole-mask descriptor is the descriptor of the box covering the mask |
| Features.ZeroHeightBoxBelowMask | utils.h:98-110 | a box whose height rounds to zero reads no row, so its descriptor exists even below the mask and its row half is all zeros |
| Features.EvenSilhouetteDescriptor | utils.h:90-132 | a box whose sides round to 100, over rows with equal positive foreground counts and columns with equal positive foreground counts, has the descriptor of ten values 0.2 |
| Features.UniformHistogramBins | utils.h:121-127 | a uniform histogram whose length is a multiple of newDim gives newDim equal bins of 1 / newDim |
| Features.UniformHundredRowsFiveBins | utils.h:121-127 | a 100-entry uniform histogram gives [0.2, 0.2, 0.2, 0.2, 0.2] |
| Features.EmptyRegionGivesZeros | utils.h:121-127 | an empty histogram gives an all-zero descriptor half, with no division by zero |
| Features.UniformNormalises | utils.h:57-60 | a constant positive histogram normalises to 1 / n everywhere |
| Classifier.NewTester | HMMTester.h:31-37 | a new tester has no stored vectors and no classification yet |
| Classifier.CountFrame | HMMTester.h:39-41 | the count is zero exactly while no vector has been stored |
| Classifier.Scan | HMMTester.h:54-86 | the selected index is one of the scanned models, or model 0 |
| Classifier.BestIndex | HMMTester.h:54-86 | the selected model is the first best one when some score exceeds `DBL_MIN`, and model 0 otherwise |
| Classifier.ScanFindsFirstBest | HMMTester.h:54-95 | the scan returns the first model with the greatest score, provided some score beats the floor; otherwise it returns model 0 at the floor |
| Classifier.NoScoreAboveFloorPicksFirst | HMMTester.h:54-86 | when no score exceeds `DBL_MIN`, model 0 is reported; otherwise the first best model is |
| Classifier.NegativeScoresReportFirstModel | HMMTester.h:54-86 | scores -10 and -5 report model 0, although model 1 is the better one |
| Classifier.NaNIsSkipped | HMMTester.h:83-86 | a NaN score never replaces the running best, so a NaN model is reported only as the default model 0, when no score exceeds `DBL_MIN` |
| Classifier.NaNBetweenScores | HMMTester.h:54-86 | scores 1, NaN, 3, NaN report model 2 |
| Classifier.TestingHmm | HMMTester.h:48-101 | the vector is appended, the frame count grows by one, loglk is the last model's score, and best is the first best model when some score exceeds `DBL_MIN`, otherwise model 0 |
| Classifier.SessionAccumulates | HMMTester.h:39-62 | after any sequence of calls, the stored vectors are the inputs in order and the frame count is their number |
| Classifier.SizeT | HMMTester.h:44 | the `size_t` value lies in [0, 2^64), differs from the exact value by a multiple of 2^64, and equals it when it already fits |
| Classifier.FindFirstOf | HMMTester.h:44 | `npos` is returned exactly when the character is absent; otherwise the position of its first occurrence |
| Classifier.Substr | HMMTester.h:44 | `substr` is undefined past the end; otherwise it returns the characters at pos, as many as len asks for or up to the end |
| Classifier.LabelSubstr | HMMTester.h:44 | without '_' the wrapped `npos + 1` selects the whole name; otherwise the part after the first '_' |
| Classifier.Label | HMMTester.h:44 | the label is the whole name when it has no '_', and otherwise whatever follows the first '_' |
| Classifier.LabelAfterPrefix | HMMTester.h:43-46 | a prefix without '_', then '_', then any suffix, gives that suffix |
| Classifier.LabelOfWalk | HMMTester.h:44 | "03_walk" gives "walk" |
| Classifier.LabelKeepsLaterUnderscores | HMMTester.h:44 | "a_b_c" gives "b_c" |
| Classifier.LabelWithoutUnderscore | HMMTester.h:44 | "run" gives "run" |
| Classifier.GetClassification | HMMTester.h:43-46 | a result exists exactly when best and loglk are set and best names an action; it pairs loglk with that action's label, the text after the first '_' of the name, or the whole name without '_' |
| Classifier.ClassificationPairsLastScore | HMMTester.h:43-95 | scores 5 and 1 classify as "jump" while reporting the last score, 1 |
| Legacy.LegacyMotionCentroid | main.cpp:162-198 | the read is out of range exactly when the largest of ALL contours lies at or past the end of the kept list; when every contour is in bounds, main.cpp and the frame analyser compute the same centroid |
| Legacy.LargestOutsideReadsOutOfRange | main.cpp:181-195 | a large out-of-frame contour after a kept one makes main.cpp index past the kept list |
| Legacy.LargestOutsideIgnoredByAnalyser | FrameAnalyzer.cpp:178-198 | on the same input the frame analyser computes (75, 75) |
| Legacy.WeightOnWrongContour | main.cpp:181-198 | with the largest contour outside the frame and listed first, main.cpp weights the first kept centroid (100, 100) instead of the largest kept one |
| Legacy.WeightOnLargestKeptContour | FrameAnalyzer.cpp:178-198 | on the same input the frame analyser weights the largest kept contour and gets (140, 140) |
| Legacy.LegacyFrame | main.cpp:162-260 | a frame is undefined exactly on the out-of-range read; otherwise the detector window is [max(x - 125, 0), min(x + 125, 640)] around an in-frame centroid and the previous window otherwise, and a box is shown exactly when a candidate survives, the first closest one |
| Legacy.LegacyBoxIsTrackerDetection | main.cpp:221-260 | the legacy box is the box the frame analyser's tracker adopts on a detection frame |

## Left out

- Video input, resizing, background subtraction, median blur, dilation,
  `findContours`, `moments` and `contourArea` are outside the model. Their
  results, a centroid or none plus twice the area per contour, are inputs.
- The HOG person detector is outside the model. Its boxes, in crop
  coordinates, are inputs.
- Drawing, windows, keyboard handling and timing are left out: they have
  no effect on the computed values.
- In main.cpp the fused box is shrunk with `cvRound` before drawing
  (main.cpp:262-268). This display-only step is left out, and
  `Legacy.LegacyFrame` returns the box before it.
- `drawHist`, `writeFeatureVectorToFile` and `getBgName` are left out.
  They are display, file output and naming.
- The models' log-likelihoods come from an HMM library that is not part of
  this model. The scores are inputs, with `NaN` as a separate value.
- Floating point is modelled as exact reals. Rounding inside `sumToOne`
  and the distance computation is not modelled. The Euclidean distance is
  replaced by the squared distance: both order the integer-centred
  candidates the same way.
- Motion.CentroidInsideFrame: assumes at most 1,000,000 contours, so the
  `uint32` numerator cannot wrap. The wrap itself is modelled by
  `Motion.U32`.
- Motion.CentroidBetweenKept: the same bound of 1,000,000 contours.
- Motion.WeightedMeanBounds: holds only while the weighted total stays
  below 2^32.
- Classifier.Label: assumes the name is shorter than 2^64 - 1 characters,
  as any name in memory is.
- Classifier.FindFirstOf: the same bound on the name's length.
- Features.Quantize: with `newDim` zero the source divides by zero, while
  the model returns the empty histogram. The analyser uses `newDim` = 5 only.
- Tracker.DeadReckon: box coordinates are unbounded integers. The source's
  `int` fields could overflow only after about 2^31 frames of coasting.
- Classifier.CountFrame: returns an unbounded count instead of a `size_t`.
- The crop is modelled by its position and width, not by its pixels.
- Features.FeatureVector: a box whose rounded size is negative makes the
  source's histogram vector constructor throw; the model returns no
  descriptor, and the frame is undefined.

## Findings

| source | as written | input that shows it | evidently intended | confidence | as-written member | corrected member |
|---|---|---|---|---|---|---|
| main.cpp:181-195 | the largest-contour scan runs over ALL contours, but its index is then used in the lists of in-bounds centroids | a kept contour of area 1 at (100, 100) then an out-of-frame contour of area 10: index 1 is read from a one-element list; with an out-of-frame contour of area 10 FIRST, then kept contours of area 1 at (100, 100) and of area 2 at (200, 200), index 0 weights the first kept centroid instead of the largest kept one | scan the in-bounds contours only, as FrameAnalyzer.cpp:178-186 does | high; not executed | Legacy.LargestOutsideReadsOutOfRange | Motion.LargestIsKeptAndMaximal |

=== FILE: analyzer.dfy ===
/**
 One call of `processFrame` (FrameAnalyzer.cpp) put together from its
 parts: motion centroid, detector window, tracker step, and the shape
 descriptor of the tracked box, which is computed only when the box has a
 positive area.

 Inputs of a frame are the contours' centroids and areas, the detector's
 boxes on the cropped image, the foreground mask, the frame position, and
 the value the uninitialised centroid variables happen to hold on a frame
 without contours. State carried between frames is the tracker, the left
 edge of the last window, the horizontal offset used to draw the box, and
 the image handed to the detector.
 */
module Analyzer {
  import opened Geometry
  import opened Motion
  import opened Detection
  import opened Tracker
  import opened Features

  datatype State = State(track: Track, leftX: int, xOffset: int, crop: Crop)

  /** The constructor's values: a default box, a zero prediction, both
      offsets zero and a blank image for the detector. */
  const Start: State := State(Initial, 0, 0, Blank)

  /** The descriptor length used by `processFrame`. */
  const NumberBins: nat := 10

  datatype FrameInput = FrameInput(pos: int, blobs: seq<Blob>, candidates: seq<Rect>,
                                   mask: Mask, indeterminate: Point)

  /**
   `Undefined`: the source fails on this frame: it indexes the centroid
   list at -1 (undefined behaviour), or asks OpenCV for a mask row or
   column past the edge (an exception).
   Otherwise the next state and the descriptor, None when the box has no
   positive area and the descriptor is left at its initial zeros.
   */
  datatype FrameOutput = Undefined | Output(state: State, features: Option<seq<real>>)

  /** The centroid the fusion rule uses on this frame. */
  function FusionCentroid(m: CentroidOutcome, indeterminate: Point): Point
  {
    if m.Centroid? then m.p else indeterminate
  }

  /**
   The state after the frame: the tracker takes one step; the window's left
   edge follows a defined centroid and the crop one inside the frame, and
   a crop inside the frame stays inside it; the box is drawn at the current
   window's edge from the frame that adopts it on, and a frame without a
   centroid changes neither window nor crop.
   */
  function NextState(s: State, input: FrameInput, m: CentroidOutcome): (next: State)
    ensures next.track == Step(s.track, input.pos, input.candidates, FusionCentroid(m, input.indeterminate))
    ensures Fires(input.pos, input.candidates) ==>
      next.track.rect in input.candidates && next.xOffset == next.leftX
    ensures !Fires(input.pos, input.candidates) ==> next.xOffset == s.xOffset
    ensures m.Centroid? ==> next.leftX == Max(m.p.x - RoiHalfWidth, 0)
    ensures m.Centroid? && IsInBounds(m.p.x, 0, FrameWidth) && IsInBounds(m.p.y, 0, FrameHeight) ==>
      next.crop.Window? && next.crop.left == next.leftX &&
      next.crop.left <= m.p.x <= next.crop.left + next.crop.width
    ensures CropInFrame(s.crop) ==> CropInFrame(next.crop)
    ensures !m.Centroid? ==> next.leftX == s.leftX && next.crop == s.crop
    ensures m.Centroid? ==> next.crop == UpdateCrop(s.crop, m.p)
  {
    var leftX := if m.Centroid? then RoiAround(m.p.x).left else s.leftX;
    var crop := if m.Centroid? then UpdateCrop(s.crop, m.p) else s.crop;
    var track := Step(s.track, input.pos, input.candidates, FusionCentroid(m, input.indeterminate));
    var xOffset := if Fires(input.pos, input.candidates) then leftX else s.xOffset;
    State(track, leftX, xOffset, crop)
  }

  /** The descriptor gate: computed only for a box of positive area, and
      undefined when the rounded region reaches past the mask. */
  function Conclude(next: State, mask: Mask): (out: FrameOutput)
    requires Rectangular(mask)
    ensures out.Output? ==> out.state == next
    ensures out.Output? ==> (out.features.Some? <==> Area(next.track.rect) > 0)
    ensures out.Output? && out.features.Some? ==>
      out.features == FeatureVector(mask, next.track.rect, NumberBins) &&
      |out.features.value| == NumberBins &&
      forall i :: 0 <= i < NumberBins ==> 0.0 <= out.features.value[i] <= 1.0
    ensures out.Undefined? <==> Area(next.track.rect) > 0 && !RegionInsideMask(mask, next.track.rect)
  {
    if Area(next.track.rect) > 0 then
      var v := FeatureVector(mask, next.track.rect, NumberBins);
      if v.None? then Undefined else Output(next, v)
    else Output(next, None)
  }

  /**
   `processFrame`. The frame is undefined exactly when no contour centroid
   passes the bounds test (the source then indexes its centroid list at -1)
   or the positive-area box's rounded region reaches past the mask.
   Otherwise the box is the tracker's step, and a descriptor of ten values
   in [0, 1] comes with it exactly when that box has a positive area.
   */
  function ProcessFrame(s: State, input: FrameInput): (out: FrameOutput)
    requires Rectangular(input.mask)
    ensures var m := MotionCentroid(input.blobs);
      var box := Step(s.track, input.pos, input.candidates, FusionCentroid(m, input.indeterminate)).rect;
      && (out.Undefined? <==> m.NoneInFrame? || (Area(box) > 0 && !RegionInsideMask(input.mask, box)))
      && (out.Output? ==> out.state.track.rect == box)
      && (out.Output? ==> out.state == NextState(s, input, m))
      && (out.Output? ==> (out.features.Some? <==> Area(box) > 0))
      && (out.Output? && out.features.Some? ==>
            out.features == FeatureVector(input.mask, box, NumberBins) &&
            |out.features.value| == NumberBins &&
            forall i :: 0 <= i < NumberBins ==> 0.0 <= out.features.value[i] <= 1.0)
  {
    var m := MotionCentroid(input.blobs);
    if m.NoneInFrame? then Undefined
    else Conclude(NextState(s, input, m), input.mask)
  }

  /** The crop never leaves the frame: a window, once cut, lies inside it. */
  predicate CropInFrame(c: Crop)
  {
    c.Window? ==> 0 <= c.left && c.left + c.width <= FrameWidth && c.width <= 2 * RoiHalfWidth
  }

  lemma ProcessFrameKeepsCropInFrame(s: State, input: FrameInput)
    requires Rectangular(input.mask) && CropInFrame(s.crop)
    ensures ProcessFrame(s, input).Output? ==> CropInFrame(ProcessFrame(s, input).state.crop)
  {
    var m := MotionCentroid(input.blobs);
    if ProcessFrame(s, input).Output? {
      assert ProcessFrame(s, input).state == NextState(s, input, m);
    }
  }

  /** Without contours the centroid, the window edge and the crop are those
      of the previous frame; only the tracker moves. */
  lemma NoContoursKeepsWindow(s: State, input: FrameInput)
    requires Rectangular(input.mask) && |input.blobs| == 0
    ensures ProcessFrame(s, input).Output? ==>
      ProcessFrame(s, input).state.leftX == s.leftX && ProcessFrame(s, input).state.crop == s.crop
  {
    var m := MotionCentroid(input.blobs);
    if ProcessFrame(s, input).Output? {
      assert ProcessFrame(s, input).state == NextState(s, input, m);
    }
  }

  predicate WellFormed(inputs: seq<FrameInput>)
  {
    forall i :: 0 <= i < |inputs| ==> Rectangular(inputs[i].mask)
  }

  /** The frames of a video in turn; Undefined from the first undefined frame on. */
  function Run(s: State, inputs: seq<FrameInput>): FrameOutput
    requires WellFormed(inputs)
    decreases |inputs|
  {
    if |inputs| == 0 then Output(s, None)
    else
      var out := ProcessFrame(s, inputs[0]);
      if out.Undefined? then Undefined
      else if |inputs| == 1 then out
      else Run(out.state, inputs[1..])
  }

  /** Over a whole video, the crop handed to the detector never leaves the
      frame. */
  lemma {:induction false} RunKeepsCropInFrame(s: State, inputs: seq<FrameInput>)
    requires WellFormed(inputs) && CropInFrame(s.crop)
    ensures Run(s, inputs).Output? ==> CropInFrame(Run(s, inputs).state.crop)
    decreases |inputs|
  {
    if |inputs| > 0 {
      var out := ProcessFrame(s, inputs[0]);
      if out.Output? {
        ProcessFrameKeepsCropInFrame(s, inputs[0]);
        if |inputs| > 1 {
          RunKeepsCropInFrame(out.state, inputs[1..]);
        }
      }
    }
  }

  /**
   Until the detector first reports a surviving box, the tracked box is the
   default one, no descriptor is produced, and nothing is undefined as long
   as every frame keeps some contour centroid in the frame or has no
   contour at all.
   */
  lemma {:induction false} NoFeaturesBeforeFirstDetection(s: State, inputs: seq<FrameInput>)
    requires WellFormed(inputs) && s.track == Initial
    requires forall i :: 0 <= i < |inputs| ==> !Fires(inputs[i].pos, inputs[i].candidates)
    requires forall i :: 0 <= i < |inputs| ==> !MotionCentroid(inputs[i].blobs).NoneInFrame?
    ensures Run(s, inputs).Output?
    ensures Run(s, inputs).state.track == Initial
    ensures Run(s, inputs).features.None?
    decreases |inputs|
  {
    if |inputs| > 0 {
      var out := ProcessFrame(s, inputs[0]);
      var m := MotionCentroid(inputs[0].blobs);
      assert !Fires(inputs[0].pos, inputs[0].candidates);
      assert !m.NoneInFrame?;
      assert DeadReckon(Initial) == Initial;
      var next := NextState(s, inputs[0], m);
      assert next.track == Initial;
      assert Area(next.track.rect) == 0;
      assert out == Conclude(next, inputs[0].mask);
      assert out.Output? && out.state.track == Initial && out.features.None?;
      if |inputs| > 1 {
        NoFeaturesBeforeFirstDetection(out.state, inputs[1..]);
      }
    }
  }

  /** A detection frame with a surviving box of positive area yields a
      descriptor of that box, provided its rounded region lies in the mask. */
  lemma DetectionYieldsFeatures(s: State, input: FrameInput)
    requires Rectangular(input.mask) && Fires(input.pos, input.candidates)
    requires !MotionCentroid(input.blobs).NoneInFrame?
    requires var f := FilterContained(input.candidates);
      forall k :: 0 <= k < |f| ==> Area(f[k]) > 0 && RegionInsideMask(input.mask, f[k])
    ensures ProcessFrame(s, input).Output?
    ensures var out := ProcessFrame(s, input);
      out.features == FeatureVector(input.mask, out.state.track.rect, NumberBins)
  {
    var f := FilterContained(input.candidates);
    var c := FusionCentroid(MotionCentroid(input.blobs), input.indeterminate);
    var next := NextState(s, input, MotionCentroid(input.blobs));
    var k :| IsFirstClosest(f, c, k) && Step(s.track, input.pos, input.candidates, c).rect == f[k];
    assert next.track.rect == f[k];
    assert ProcessFrame(s, input) == Conclude(next, input.mask);
  }
}

=== FILE: classifier.dfy ===
/**
 The classifier adapter of HMMTester.h. Every call of `testingHMM` appends
 the frame's feature vector to the accumulated sequence and scores it against
 each trained model; the index of the best-scoring model and the score of
 the last model are kept for `getClassification`, which pairs that score
 with the action label of the best model.

 The models' log-likelihoods come from a library that is not part of this
 model: one `Score` per model is an input of each call. A score is a real
 or NaN, the one value that fails the source's `loglk == loglk` test.
 */
module Classifier {
  import opened Geometry

  datatype Score = Finite(v: real) | NaN

  /** `DBL_MIN`, the smallest positive normalised double, 2.2250738585072014e-308. */
  const DblMin: real := 0.000000000000000000000000000000000000000000000000000000000000000000000000000000000000000000000000000000000000000000000000000000000000000000000000000000000000000000000000000000000000000000000000000000000000000000000000000000000000000000000000000000000000000000000000000000000000000000000000000000000000000000022250738585072014

  /** `a > b` on doubles: false as soon as either side is NaN. */
  predicate Greater(a: Score, b: Score)
  {
    a.Finite? && b.Finite? && a.v > b.v
  }

  /**
   `classAction` holds one label per model; `best` and `loglk` are
   uninitialised until the first call of `testingHMM` (None).
   */
  datatype Tester = Tester(classAction: seq<string>, models: nat, features: seq<seq<real>>,
                           best: Option<nat>, loglk: Option<Score>)

  function NewTester(classAction: seq<string>, models: nat): (t: Tester)
    ensures t.features == [] && t.best.None? && t.loglk.None?
    ensures t.classAction == classAction && t.models == models
  {
    Tester(classAction, models, [], None, None)
  }

  /** `countFrame`: the number of accumulated feature vectors; zero exactly
      while nothing has been accumulated. */
  function CountFrame(t: Tester): (n: nat)
    ensures n == 0 <==> t.features == []
  {
    |t.features|
  }

  // ------------------------------------------------------------- argmax

  /**
   The selection loop over the first `n` scores, started from the running
   maximum `floor` and index 0: a score replaces the maximum only when it
   is strictly greater and not NaN (the source's `loglk == loglk`, already
   implied by `Greater`). Returns the final maximum and index.
   */
  function Scan(scores: seq<Score>, floor: real, n: nat): (r: (Score, nat))
    requires n <= |scores|
    ensures r.1 < n || r.1 == 0
    decreases n
  {
    if n == 0 then (Finite(floor), 0)
    else
      var (m, k) := Scan(scores, floor, n - 1);
      if Greater(scores[n - 1], m) then (scores[n - 1], n - 1)
      else (m, k)
  }

  /** Some score among the first `n` is a real above `floor`. */
  predicate SomeAbove(scores: seq<Score>, floor: real, n: nat)
    requires n <= |scores|
  {
    exists j :: 0 <= j < n && Greater(scores[j], Finite(floor))
  }

  /** `k` is the first index among the first `n` holding the greatest real
      score: no real score is greater, every earlier real score is smaller. */
  predicate IsFirstBest(scores: seq<Score>, n: nat, k: nat)
    requires n <= |scores|
  {
    && k < n && scores[k].Finite?
    && (forall j :: 0 <= j < n ==> !Greater(scores[j], scores[k]))
    && (forall j :: 0 <= j < k ==> !scores[j].Finite? || Greater(scores[k], scores[j]))
  }

  /**
   The loop selects the first greatest real score when some score exceeds
   the starting value, and otherwise keeps index 0 and the starting value.
   */
  lemma {:induction false} ScanFindsFirstBest(scores: seq<Score>, floor: real, n: nat)
    requires n <= |scores|
    ensures var (m, k) := Scan(scores, floor, n);
      && (SomeAbove(scores, floor, n) ==>
            IsFirstBest(scores, n, k) && m == scores[k] && Greater(m, Finite(floor)))
      && (!SomeAbove(scores, floor, n) ==> k == 0 && m == Finite(floor))
    decreases n
  {
    if n > 0 {
      ScanFindsFirstBest(scores, floor, n - 1);
      var (m, k) := Scan(scores, floor, n - 1);
      if SomeAbove(scores, floor, n - 1) {
        assert SomeAbove(scores, floor, n);
      } else if Greater(scores[n - 1], Finite(floor)) {
        assert forall j :: 0 <= j < n - 1 ==> !Greater(scores[j], Finite(floor));
      } else {
        assert forall j :: 0 <= j < n ==> !Greater(scores[j], Finite(floor));
      }
    }
  }

  /** The selection of `testingHMM`, which starts from `DBL_MIN`: the first
      greatest score when some score exceeds `DBL_MIN`, otherwise model 0. */
  function BestIndex(scores: seq<Score>): (k: nat)
    ensures SomeAbove(scores, DblMin, |scores|) ==> IsFirstBest(scores, |scores|, k)
    ensures !SomeAbove(scores, DblMin, |scores|) ==> k == 0
  {
    ScanFindsFirstBest(scores, DblMin, |scores|);
    Scan(scores, DblMin, |scores|).1
  }

  /** When no score exceeds `DBL_MIN` (for example when every
      log-likelihood is negative) the first model is reported. */
  lemma NoScoreAboveFloorPicksFirst(scores: seq<Score>)
    ensures (forall j :: 0 <= j < |scores| ==> !Greater(scores[j], Finite(DblMin))) ==>
      BestIndex(scores) == 0
    ensures SomeAbove(scores, DblMin, |scores|) ==> IsFirstBest(scores, |scores|, BestIndex(scores))
  {
    ScanFindsFirstBest(scores, DblMin, |scores|);
  }

  /** Log-likelihoods -10 and -5: the second model is the better one, yet the
      first is reported. */
  lemma NegativeScoresReportFirstModel()
    ensures BestIndex([Finite(-10.0), Finite(-5.0)]) == 0
    ensures IsFirstBest([Finite(-10.0), Finite(-5.0)], 2, 1)
  {
    ScanFindsFirstBest([Finite(-10.0), Finite(-5.0)], DblMin, 2);
  }

  /** A NaN score never replaces the running best, so a NaN model is
      reported only as the default model 0, when no score exceeds `DBL_MIN`. */
  lemma NaNIsSkipped(scores: seq<Score>, floor: real, n: nat)
    requires n < |scores| && scores[n].NaN?
    ensures Scan(scores, floor, n + 1) == Scan(scores, floor, n)
    ensures BestIndex(scores) == n ==> n == 0 && !SomeAbove(scores, DblMin, |scores|)
  {
  }

  /** NaN scores between real ones are passed over. */
  lemma NaNBetweenScores()
    ensures BestIndex([Finite(1.0), NaN, Finite(3.0), NaN]) == 2
  {
    var s := [Finite(1.0), NaN, Finite(3.0), NaN];
    ScanFindsFirstBest(s, DblMin, 4);
    assert Greater(s[2], Finite(DblMin));
  }

  // -------------------------------------------------------------- calls

  /**
   `testingHMM`: the feature vector is accumulated, `best` is the selected
   model, and `loglk` is left holding the score of the LAST model, not the
   best one (unchanged when there is no model).
   */
  function TestingHmm(t: Tester, featureVector: seq<real>, scores: seq<Score>): (u: Tester)
    requires |scores| == t.models
    ensures u.features == t.features + [featureVector]
    ensures u.classAction == t.classAction && u.models == t.models
    ensures CountFrame(u) == CountFrame(t) + 1
    ensures u.best.Some? && (u.best.value < |scores| || u.best.value == 0)
    ensures SomeAbove(scores, DblMin, |scores|) ==> IsFirstBest(scores, |scores|, u.best.value)
    ensures !SomeAbove(scores, DblMin, |scores|) ==> u.best == Some(0)
    ensures |scores| > 0 ==> u.loglk == Some(scores[|scores| - 1])
    ensures |scores| == 0 ==> u.loglk == t.loglk
  {
    Tester(t.classAction, t.models, t.features + [featureVector], Some(BestIndex(scores)),
           if |scores| == 0 then t.loglk else Some(scores[|scores| - 1]))
  }

  datatype Call = Call(featureVector: seq<real>, scores: seq<Score>)

  predicate WellFormed(t: Tester, calls: seq<Call>)
  {
    forall i :: 0 <= i < |calls| ==> |calls[i].scores| == t.models
  }

  function Session(t: Tester, calls: seq<Call>): Tester
    requires WellFormed(t, calls)
    decreases |calls|
  {
    if |calls| == 0 then t
    else Session(TestingHmm(t, calls[0].featureVector, calls[0].scores), calls[1..])
  }

  function Vectors(calls: seq<Call>): (v: seq<seq<real>>)
    ensures |v| == |calls| && forall i :: 0 <= i < |calls| ==> v[i] == calls[i].featureVector
  {
    seq(|calls|, i requires 0 <= i < |calls| => calls[i].featureVector)
  }

  lemma VectorsCons(calls: seq<Call>)
    requires |calls| > 0
    ensures Vectors(calls) == [calls[0].featureVector] + Vectors(calls[1..])
  {
  }

  lemma Associate<T>(a: seq<T>, b: seq<T>, c: seq<T>)
    ensures (a + b) + c == a + (b + c)
  {
  }

  /** Every call appends exactly one feature vector: after a session the
      accumulated vectors are the session's vectors in order, and
      `countFrame` has grown by the number of calls. */
  lemma {:induction false} SessionAccumulates(t: Tester, calls: seq<Call>)
    requires WellFormed(t, calls)
    ensures Session(t, calls).features == t.features + Vectors(calls)
    ensures CountFrame(Session(t, calls)) == CountFrame(t) + |calls|
    decreases |calls|
  {
    if |calls| > 0 {
      var u := TestingHmm(t, calls[0].featureVector, calls[0].scores);
      assert WellFormed(u, calls[1..]);
      assert Session(t, calls) == Session(u, calls[1..]);
      SessionAccumulates(u, calls[1..]);
      VectorsCons(calls);
      Associate(t.features, [calls[0].featureVector], Vectors(calls[1..]));
    }
  }

  // --------------------------------------------------------------- label

  /** `std::string::npos` and the wrap-around of `size_t` arithmetic. */
  const SizeModulus: int := 0x1_0000_0000_0000_0000
  const Npos: int := SizeModulus - 1

  function SizeT(v: int): (r: int)
    ensures 0 <= r < SizeModulus
    ensures (v - r) % SizeModulus == 0
    ensures 0 <= v < SizeModulus ==> r == v
  {
    v % SizeModulus
  }

  /** The search of `find_first_of(c)` from index `i` on. */
  function FindFrom(s: string, c: char, i: nat): (p: int)
    requires i <= |s| < Npos
    ensures p == Npos || (i <= p < |s| && s[p] == c)
    ensures p == Npos ==> forall j :: i <= j < |s| ==> s[j] != c
    ensures p != Npos ==> forall j :: i <= j < p ==> s[j] != c
    decreases |s| - i
  {
    if i == |s| then Npos
    else if s[i] == c then i
    else FindFrom(s, c, i + 1)
  }

  /** `find_first_of(c)`: the first index holding `c`, or `npos`. */
  function FindFirstOf(s: string, c: char): (p: int)
    requires |s| < Npos
    ensures p == Npos <==> c !in s
    ensures p != Npos ==> 0 <= p < |s| && s[p] == c && c !in s[..p]
    ensures p != Npos ==> forall j :: 0 <= j < p ==> s[j] != c
  {
    var p := FindFrom(s, c, 0);
    assert p != Npos ==> s[p] == c;
    assert p != Npos ==> forall j :: 0 <= j < p ==> s[..p][j] != c;
    p
  }

  /** `substr(pos, len)`: out of range (None) when `pos` is past the end,
      otherwise at most `len` characters from `pos`. */
  function Substr(s: string, pos: int, len: int): (r: Option<string>)
    requires 0 <= len
    ensures r.None? <==> pos < 0 || pos > |s|
    ensures r.Some? ==> pos + |r.value| <= |s| && s[..pos] + r.value + s[pos + |r.value|..] == s
    ensures r.Some? ==> |r.value| <= len && (|r.value| == len || pos + |r.value| == |s|)
  {
    if pos < 0 || pos > |s| then None
    else Some(s[pos..pos + Min(len, |s| - pos)])
  }

  /** `npos + 1` wraps to 0 and `length - npos` to `length + 1`. */
  lemma NposWraps(n: nat)
    requires n < Npos
    ensures SizeT(Npos + 1) == 0 && SizeT(n - Npos) == n + 1
  {
  }

  lemma NoWrap(n: nat, p: nat)
    requires p < n < Npos
    ensures SizeT(p + 1) == p + 1 && SizeT(n - p) == n - p
  {
  }

  lemma SplitAt(s: string, p: int)
    requires 0 <= p < |s|
    ensures s == s[..p] + [s[p]] + s[p + 1..]
  {
  }

  /** The arguments `getClassification` hands to `substr` are in range: the
      substring is the whole name when it has no `_`, and what follows the
      first `_` otherwise. */
  lemma LabelSubstr(s: string)
    requires |s| < Npos
    ensures var p := FindFirstOf(s, '_');
      var r := Substr(s, SizeT(p + 1), SizeT(|s| - p));
      && r.Some?
      && (p == Npos ==> r.value == s)
      && (p != Npos ==> r.value == s[p + 1..] && s == s[..p] + "_" + s[p + 1..])
  {
    var p := FindFirstOf(s, '_');
    if p == Npos {
      WholeSubstr(s, p);
    } else {
      TailSubstr(s, p);
    }
  }

  lemma WholeSubstr(s: string, p: int)
    requires |s| < Npos && p == Npos
    ensures Substr(s, SizeT(p + 1), SizeT(|s| - p)) == Some(s)
  {
    NposWraps(|s|);
    assert s[0..|s|] == s;
  }

  lemma TailSubstr(s: string, p: int)
    requires 0 <= p < |s| < Npos && s[p] == '_'
    ensures Substr(s, SizeT(p + 1), SizeT(|s| - p)) == Some(s[p + 1..])
    ensures s == s[..p] + "_" + s[p + 1..]
  {
    NoWrap(|s|, p);
    assert Min(|s| - p, |s| - (p + 1)) == |s| - (p + 1);
    assert s[p + 1..|s|] == s[p + 1..];
    SplitAt(s, p);
  }

  /** The label of an action name: the part after the first `_`, or the whole
      name when it has none. */
  function Label(s: string): (l: string)
    requires |s| < Npos
    ensures '_' !in s ==> l == s
    ensures '_' in s ==> exists p :: 0 <= p < |s| && s == s[..p] + "_" + l && '_' !in s[..p]
  {
    LabelSubstr(s);
    Substr(s, SizeT(FindFirstOf(s, '_') + 1), SizeT(|s| - FindFirstOf(s, '_'))).value
  }

  /** In a name made of a prefix without `_`, an underscore and any suffix,
      the first `_` is the one after the prefix. */
  lemma FirstUnderscore(prefix: string, suffix: string)
    requires '_' !in prefix && |prefix| + 1 + |suffix| < Npos
    ensures FindFirstOf(prefix + "_" + suffix, '_') == |prefix|
  {
    var s := prefix + "_" + suffix;
    assert s[|prefix|] == '_';
    assert forall j :: 0 <= j < |prefix| ==> s[j] == prefix[j];
  }

  /** The label undoes the prefix: any name without `_`, an underscore,
      then any label, gives back that label. */
  lemma LabelAfterPrefix(prefix: string, suffix: string)
    requires '_' !in prefix && |prefix| + 1 + |suffix| < Npos
    ensures Label(prefix + "_" + suffix) == suffix
  {
    var s := prefix + "_" + suffix;
    FirstUnderscore(prefix, suffix);
    LabelSubstr(s);
    assert s[|prefix| + 1..] == suffix;
  }

  lemma LabelOfWalk()
    ensures Label("03_walk") == "walk"
  {
    assert "03" + "_" + "walk" == "03_walk";
    LabelAfterPrefix("03", "walk");
  }

  /** Only the first `_` separates the label. */
  lemma LabelKeepsLaterUnderscores()
    ensures Label("a_b_c") == "b_c"
  {
    assert "a" + "_" + "b_c" == "a_b_c";
    LabelAfterPrefix("a", "b_c");
  }

  /** A name without `_` is its own label. */
  lemma LabelWithoutUnderscore()
    ensures Label("run") == "run"
  {
    assert forall i :: 0 <= i < |"run"| ==> "run"[i] != '_';
  }

  /**
   `getClassification`: the last call's `loglk` with the label of the
   selected model. Undefined (None) before the first call, when the selected
   index has no label, or when no model has ever been scored.
   */
  function GetClassification(t: Tester): (r: Option<(Score, string)>)
    ensures r.Some? <==> t.best.Some? && t.best.value < |t.classAction| && t.loglk.Some? &&
                         |t.classAction[t.best.value]| < Npos
    ensures r.Some? ==> r.value.0 == t.loglk.value
    ensures r.Some? ==> r.value.1 == Label(t.classAction[t.best.value])
    ensures r.Some? && '_' !in t.classAction[t.best.value] ==> r.value.1 == t.classAction[t.best.value]
    ensures r.Some? && '_' in t.classAction[t.best.value] ==>
      exists p :: 0 <= p < |t.classAction[t.best.value]| &&
        t.classAction[t.best.value] == t.classAction[t.best.value][..p] + "_" + r.value.1 &&
        '_' !in t.classAction[t.best.value][..p]
  {
    if t.best.Some? && t.best.value < |t.classAction| && t.loglk.Some? &&
       |t.classAction[t.best.value]| < Npos
    then Some((t.loglk.value, Label(t.classAction[t.best.value])))
    else None
  }

  lemma FirstOfFiveAndOne()
    ensures BestIndex([Finite(5.0), Finite(1.0)]) == 0
  {
    var s := [Finite(5.0), Finite(1.0)];
    ScanFindsFirstBest(s, DblMin, 2);
    assert Greater(s[0], Finite(DblMin));
    assert Greater(s[0], s[1]);
  }

  lemma LabelOfJump()
    ensures Label("1_jump") == "jump"
  {
    assert "1" + "_" + "jump" == "1_jump";
    LabelAfterPrefix("1", "jump");
  }

  /** Scores 5 and 1: the first model is reported, with the second model's
      log-likelihood. */
  lemma ClassificationPairsLastScore()
    ensures var t := TestingHmm(NewTester(["1_jump", "2_walk"], 2), [0.5, 0.5], [Finite(5.0), Finite(1.0)]);
      GetClassification(t) == Some((Finite(1.0), "jump"))
  {
    var t := TestingHmm(NewTester(["1_jump", "2_walk"], 2), [0.5, 0.5], [Finite(5.0), Finite(1.0)]);
    FirstOfFiveAndOne();
    LabelOfJump();
    assert t.best == Some(0) && t.loglk == Some(Finite(1.0));
    assert t.classAction[0] == "1_jump";
  }
}

=== FILE: detection.dfy ===
/**
 Detector post-processing of one detection frame (FrameAnalyzer.cpp,
 `processFrame`): the filter that drops every candidate box lying inside
 another candidate, and the fusion rule that keeps the surviving box whose
 centre is closest to the motion centroid.

 The detector's boxes are inputs, in the coordinates of the cropped image.
 The source measures distances with the Euclidean norm of doubles; since
 the square root is monotone and the coordinates are small integers, the
 comparison is carried out here on exact squared distances.
 */
module Detection {
  import opened Geometry

  /** Candidate `i` survives when no OTHER candidate contains it. Two
      identical boxes contain each other, so both are dropped. */
  predicate Survives(found: seq<Rect>, i: int)
    requires 0 <= i < |found|
  {
    forall j :: 0 <= j < |found| && j != i ==> !InsideOf(found[i], found[j])
  }

  /** The indices below `n` of the surviving candidates, in increasing order. */
  function SurvivorIndices(found: seq<Rect>, n: nat): (idx: seq<nat>)
    requires n <= |found|
    ensures |idx| <= n
    ensures forall k :: 0 <= k < |idx| ==> idx[k] < n && Survives(found, idx[k])
    ensures forall k, l :: 0 <= k < l < |idx| ==> idx[k] < idx[l]
    ensures forall i :: 0 <= i < n && Survives(found, i) ==> i in idx
    decreases n
  {
    if n == 0 then []
    else SurvivorIndices(found, n - 1) + (if Survives(found, n - 1) then [n - 1] else [])
  }

  function Select(found: seq<Rect>, idx: seq<nat>): (r: seq<Rect>)
    requires forall k :: 0 <= k < |idx| ==> idx[k] < |found|
    ensures |r| == |idx| && forall k :: 0 <= k < |idx| ==> r[k] == found[idx[k]]
  {
    seq(|idx|, k requires 0 <= k < |idx| => found[idx[k]])
  }

  /** `found_filtered`: the surviving candidates, in detector order. */
  function FilterContained(found: seq<Rect>): (f: seq<Rect>)
    ensures |f| <= |found|
    ensures forall k :: 0 <= k < |f| ==> f[k] in found
  {
    var idx := SurvivorIndices(found, |found|);
    var f := Select(found, idx);
    assert forall k :: 0 <= k < |f| ==> f[k] == found[idx[k]];
    f
  }

  /** The filter keeps exactly the candidates no other candidate contains,
      in their original order. */
  lemma FilterKeepsExactlySurvivors(found: seq<Rect>)
    ensures var idx := SurvivorIndices(found, |found|);
      && FilterContained(found) == Select(found, idx)
      && (forall k, l :: 0 <= k < l < |idx| ==> idx[k] < idx[l])
      && (forall i :: 0 <= i < |found| ==> (i in idx <==> Survives(found, i)))
  {
  }

  /** The inner loop of the source: the scan for another candidate
      containing candidate `i`, which stops at the first one found. */
  method FindContainer(found: seq<Rect>, i: int) returns (j: int)
    requires 0 <= i < |found|
    ensures 0 <= j <= |found|
    ensures j == |found| <==> Survives(found, i)
    ensures j < |found| ==> j != i && InsideOf(found[i], found[j])
  {
    j := 0;
    while j < |found| && !(j != i && InsideOf(found[i], found[j]))
      invariant 0 <= j <= |found|
      invariant forall m :: 0 <= m < j && m != i ==> !InsideOf(found[i], found[m])
    {
      j := j + 1;
    }
  }

  /** One more candidate looked at: the filter's output grows by that
      candidate exactly when it survives. */
  lemma SurvivorStep(found: seq<Rect>, i: nat)
    requires i < |found|
    ensures Select(found, SurvivorIndices(found, i + 1)) ==
      Select(found, SurvivorIndices(found, i)) + (if Survives(found, i) then [found[i]] else [])
  {
    var idx := SurvivorIndices(found, i);
    if Survives(found, i) {
      assert SurvivorIndices(found, i + 1) == idx + [i];
    } else {
      assert SurvivorIndices(found, i + 1) == idx;
    }
  }

  /** The nested loops of the source, with the inner loop's early exit. */
  method FilterNested(found: seq<Rect>) returns (kept: seq<Rect>)
    ensures kept == FilterContained(found)
  {
    kept := [];
    var i := 0;
    while i < |found|
      invariant 0 <= i <= |found|
      invariant kept == Select(found, SurvivorIndices(found, i))
    {
      var j := FindContainer(found, i);
      SurvivorStep(found, i);
      if j == |found| {
        kept := kept + [found[i]];
      }
      i := i + 1;
    }
  }

  /** The indices 0 to n - 1 in order. */
  function Iota(n: nat): (r: seq<nat>)
    ensures |r| == n && forall i :: 0 <= i < n ==> r[i] == i
    decreases n
  {
    if n == 0 then [] else Iota(n - 1) + [n - 1]
  }

  /** When no candidate lies inside another, the filter changes nothing. */
  lemma {:induction false} FilterOfSurvivorsIsIdentity(found: seq<Rect>, n: nat)
    requires n <= |found|
    requires forall i :: 0 <= i < |found| ==> Survives(found, i)
    ensures SurvivorIndices(found, n) == Iota(n)
    decreases n
  {
    if n > 0 {
      FilterOfSurvivorsIsIdentity(found, n - 1);
      assert Survives(found, n - 1);
    }
  }

  /** Every box the filter returns also survives among the returned boxes. */
  lemma FilteredAllSurvive(found: seq<Rect>)
    ensures var f := FilterContained(found);
      forall i :: 0 <= i < |f| ==> Survives(f, i)
  {
    var idx := SurvivorIndices(found, |found|);
    var f := FilterContained(found);
    forall i | 0 <= i < |f| ensures Survives(f, i) {
      forall j | 0 <= j < |f| && j != i ensures !InsideOf(f[i], f[j]) {
        assert idx[i] != idx[j] by {
          if i < j { assert idx[i] < idx[j]; } else { assert idx[j] < idx[i]; }
        }
        assert Survives(found, idx[i]);
      }
    }
  }

  /** Filtering twice is filtering once. */
  lemma FilterIdempotent(found: seq<Rect>)
    ensures FilterContained(FilterContained(found)) == FilterContained(found)
  {
    var f := FilterContained(found);
    FilteredAllSurvive(found);
    FilterOfSurvivorsIsIdentity(f, |f|);
  }

  /** A box listed twice by the detector is dropped altogether. */
  lemma DuplicateBoxesBothDropped(b: Rect)
    requires b.width > 0 && b.height > 0
    ensures FilterContained([b, b]) == []
  {
    InsideOfIsContainment(b, b);
    assert !Survives([b, b], 0) && !Survives([b, b], 1);
    assert SurvivorIndices([b, b], 1) == [];
  }

  /** A box strictly nested in another is dropped and the box around it is
      kept. */
  lemma NestedBoxDropped(outer: Rect, inner: Rect)
    requires inner.width > 0 && inner.height > 0 && inner != outer
    requires outer.x <= inner.x && outer.y <= inner.y
    requires inner.x + inner.width <= outer.x + outer.width
    requires inner.y + inner.height <= outer.y + outer.height
    ensures FilterContained([outer, inner]) == [outer]
  {
    var found := [outer, inner];
    InsideOfIsContainment(inner, outer);
    InsideOfIsContainment(outer, inner);
    assert Survives(found, 0);
    assert InsideOf(found[1], found[0]);
    assert !Survives(found, 1);
    assert SurvivorIndices(found, 1) == [0];
    assert SurvivorIndices(found, 2) == [0];
  }

  /** The example of a person box with a smaller box inside it. */
  lemma PersonBoxKeepsOuter()
    ensures FilterContained([Rect(0, 0, 100, 200), Rect(10, 10, 50, 50)]) == [Rect(0, 0, 100, 200)]
  {
    NestedBoxDropped(Rect(0, 0, 100, 200), Rect(10, 10, 50, 50));
  }

  /** The centre used by the fusion rule, with C++ integer halving: inside
      a box of non-negative extent, at most half a pixel before the middle. */
  function Center(r: Rect): (c: Point)
    ensures r.width >= 0 ==> r.x <= c.x <= r.x + r.width && 0 <= 2 * (c.x - r.x) <= r.width <= 2 * (c.x - r.x) + 1
    ensures r.height >= 0 ==> r.y <= c.y <= r.y + r.height && 0 <= 2 * (c.y - r.y) <= r.height <= 2 * (c.y - r.y) + 1
  {
    Point(r.x + Half(r.width), r.y + Half(r.height))
  }

  function DistSq(p: Point, q: Point): nat
  {
    (p.x - q.x) * (p.x - q.x) + (p.y - q.y) * (p.y - q.y)
  }

  function DistTo(r: Rect, c: Point): nat
  {
    DistSq(Center(r), c)
  }

  /** `k` is the first candidate at minimal distance from `c`. */
  predicate IsFirstClosest(cands: seq<Rect>, c: Point, k: int)
  {
    && 0 <= k < |cands|
    && (forall j :: 0 <= j < |cands| ==> DistTo(cands[k], c) <= DistTo(cands[j], c))
    && (forall j :: 0 <= j < k ==> DistTo(cands[k], c) < DistTo(cands[j], c))
  }

  /** The fusion scan: start with the first candidate and move on only to a
      strictly closer one. */
  function Closest(cands: seq<Rect>, c: Point): (k: nat)
    requires |cands| > 0
    ensures IsFirstClosest(cands, c, k)
    decreases |cands|
  {
    if |cands| == 1 then 0
    else
      var front := cands[..|cands| - 1];
      var k := Closest(front, c);
      assert forall j :: 0 <= j < |front| ==> front[j] == cands[j];
      if DistTo(cands[|cands| - 1], c) < DistTo(cands[k], c) then |cands| - 1 else k
  }

  /** The first closest candidate is unique: the fusion result is
      determined by the candidates and the centroid alone. */
  lemma FirstClosestUnique(cands: seq<Rect>, c: Point, k1: int, k2: int)
    requires IsFirstClosest(cands, c, k1) && IsFirstClosest(cands, c, k2)
    ensures k1 == k2
  {
    assert DistTo(cands[k1], c) == DistTo(cands[k2], c);
  }

  /** Two candidates centred at (100, 100) and (320, 240) with the centroid at
      (310, 235): the second one is chosen. */
  lemma FusionPicksNearCandidate()
    ensures Closest([Rect(50, 50, 100, 100), Rect(270, 190, 100, 100)], Point(310, 235)) == 1
  {
    var cands := [Rect(50, 50, 100, 100), Rect(270, 190, 100, 100)];
    assert Center(cands[0]) == Point(100, 100);
    assert Center(cands[1]) == Point(320, 240);
    assert DistTo(cands[1], Point(310, 235)) < DistTo(cands[0], Point(310, 235));
  }

  /** Two candidates at equal distance: the first one is kept. */
  lemma FusionTieKeepsFirst()
    ensures Closest([Rect(0, 0, 10, 10), Rect(10, 0, 10, 10)], Point(10, 5)) == 0
  {
    var cands := [Rect(0, 0, 10, 10), Rect(10, 0, 10, 10)];
    assert DistTo(cands[0], Point(10, 5)) == DistTo(cands[1], Point(10, 5));
  }
}

=== FILE: features.dfy ===
/**
 The shape descriptor of utils.h: row and column occupancy histograms of
 the foreground mask, normalised to sum to one and reduced to `bins / 2`
 bins each by `quantize`.

 Histogram values are doubles in the source and reals here. The mask is a
 rectangular grid of booleans (non-zero pixel or not).
 */
module Features {
  import opened Geometry

  // ---------------------------------------------------------------- sums

  function SumR(s: seq<real>): real
  {
    if |s| == 0 then 0.0 else SumR(s[..|s| - 1]) + s[|s| - 1]
  }

  lemma {:induction false} SumAppend(a: seq<real>, b: seq<real>)
    ensures SumR(a + b) == SumR(a) + SumR(b)
    decreases |b|
  {
    if |b| > 0 {
      assert (a + b)[..|a + b| - 1] == a + b[..|b| - 1];
      assert (a + b)[|a + b| - 1] == b[|b| - 1];
      SumAppend(a, b[..|b| - 1]);
    } else {
      assert a + b == a;
    }
  }

  /** Splitting a slice at an inner point splits its sum. */
  lemma SumSplit(s: seq<real>, lo: int, mid: int, hi: int)
    requires 0 <= lo <= mid <= hi <= |s|
    ensures SumR(s[lo..hi]) == SumR(s[lo..mid]) + SumR(s[mid..hi])
  {
    assert s[lo..hi] == s[lo..mid] + s[mid..hi];
    SumAppend(s[lo..mid], s[mid..hi]);
  }

  predicate NonNegative(s: seq<real>)
  {
    forall i :: 0 <= i < |s| ==> s[i] >= 0.0
  }

  lemma {:induction false} SumNonNegative(s: seq<real>)
    requires NonNegative(s)
    ensures SumR(s) >= 0.0
    decreases |s|
  {
    if |s| > 0 {
      SumNonNegative(s[..|s| - 1]);
    }
  }

  /** The sum of a slice of a non-negative sequence is at most its total. */
  lemma SliceAtMostSum(s: seq<real>, lo: int, hi: int)
    requires NonNegative(s) && 0 <= lo <= hi <= |s|
    ensures 0.0 <= SumR(s[lo..hi]) <= SumR(s)
  {
    assert s == s[..lo] + s[lo..hi] + s[hi..];
    SumAppend(s[..lo] + s[lo..hi], s[hi..]);
    SumAppend(s[..lo], s[lo..hi]);
    SumNonNegative(s[..lo]);
    SumNonNegative(s[lo..hi]);
    SumNonNegative(s[hi..]);
  }

  lemma ElementAtMostSum(s: seq<real>, i: int)
    requires NonNegative(s) && 0 <= i < |s|
    ensures s[i] <= SumR(s)
  {
    SliceAtMostSum(s, i, i + 1);
    assert s[i..i + 1][..0] == [];
  }

  lemma {:induction false} SumConstant(s: seq<real>, c: real)
    requires forall i :: 0 <= i < |s| ==> s[i] == c
    ensures SumR(s) == |s| as real * c
    decreases |s|
  {
    if |s| > 0 {
      SumConstant(s[..|s| - 1], c);
    }
  }

  // ---------------------------------------------------------- roundToTen

  /** C++ `n % 10` on `int`: the remainder has the sign of the dividend. */
  function CppRem10(n: int): (r: int)
    ensures n >= 0 ==> 0 <= r < 10
    ensures n < 0 ==> -10 < r <= 0
    ensures (n - r) % 10 == 0
  {
    if n >= 0 then n % 10 else -((-n) % 10)
  }

  /**
   `roundToTen`: to the multiple of ten below when the last digit is below
   five, to the one above otherwise. A negative number, whose C++
   remainder is never positive, is rounded toward zero.
   */
  function RoundToTen(n: int): (r: int)
    ensures r % 10 == 0
    ensures n >= 0 ==> 0 <= r && n - 4 <= r <= n + 5
    ensures n >= 0 ==> (r <= n <==> n % 10 < 5)
    ensures n < 0 ==> n <= r <= 0 && r < n + 10
  {
    var rem := CppRem10(n);
    if rem < 5 then n - rem else n + (10 - rem)
  }

  lemma RoundToTenExamples()
    ensures RoundToTen(143) == 140 && RoundToTen(79) == 80
    ensures RoundToTen(145) == 150 && RoundToTen(-147) == -140
  {
  }

  /** A multiple of ten is left alone, so rounding twice is rounding once. */
  lemma RoundToTenFixesMultiples(n: int)
    ensures n % 10 == 0 ==> RoundToTen(n) == n
    ensures RoundToTen(RoundToTen(n)) == RoundToTen(n)
  {
  }

  // ------------------------------------------------------------ sumToOne

  function Scale(h: seq<real>, t: real): (r: seq<real>)
    requires t != 0.0
    ensures |r| == |h| && forall i :: 0 <= i < |h| ==> r[i] == h[i] / t
  {
    if |h| == 0 then [] else Scale(h[..|h| - 1], t) + [h[|h| - 1] / t]
  }

  lemma DivAdd(x: real, y: real, t: real)
    requires t != 0.0
    ensures x / t + y / t == (x + y) / t
  {
    var u, v := x / t, y / t;
    assert u * t == x && v * t == y;
    assert (u + v) * t == x + y;
  }

  lemma {:induction false} SumScale(h: seq<real>, t: real)
    requires t != 0.0
    ensures SumR(Scale(h, t)) == SumR(h) / t
    decreases |h|
  {
    if |h| > 0 {
      var front := h[..|h| - 1];
      SumScale(front, t);
      assert Scale(h, t)[..|h| - 1] == Scale(front, t);
      DivAdd(SumR(front), h[|h| - 1], t);
    }
  }

  /** On a non-negative sequence every entry is at most the total. */
  lemma EntriesAtMostSum(s: seq<real>)
    requires NonNegative(s)
    ensures forall i :: 0 <= i < |s| ==> s[i] <= SumR(s)
  {
    forall i | 0 <= i < |s| ensures s[i] <= SumR(s) {
      ElementAtMostSum(s, i);
    }
  }

  lemma NormalisedSumIsOne(h: seq<real>)
    requires SumR(h) != 0.0
    ensures SumR(Scale(h, SumR(h))) == 1.0
  {
    var t := SumR(h);
    SumScale(h, t);
    DivSelf(t);
  }

  lemma DivSelf(t: real)
    requires t != 0.0
    ensures t / t == 1.0
  {
    var u := t / t;
    assert u * t == t;
    assert (u - 1.0) * t == 0.0;
  }

  lemma DivNonNegative(x: real, t: real)
    requires x >= 0.0 && t > 0.0
    ensures x / t >= 0.0
  {
    var u := x / t;
    assert u * t == x;
  }

  /** Dividing a non-negative histogram by its non-zero total leaves
      entries between zero and one. */
  lemma NormalisedInUnitRange(h: seq<real>)
    requires SumR(h) != 0.0 && NonNegative(h)
    ensures NonNegative(Scale(h, SumR(h)))
    ensures forall i :: 0 <= i < |h| ==> Scale(h, SumR(h))[i] <= 1.0
  {
    var t := SumR(h);
    var n := Scale(h, t);
    SumNonNegative(h);
    forall i | 0 <= i < |n| ensures n[i] >= 0.0 {
      DivNonNegative(h[i], t);
    }
    NormalisedSumIsOne(h);
    EntriesAtMostSum(n);
  }

  /**
   `sumToOne`: every entry divided by the total when the total is not
   zero; a histogram summing to zero is returned unchanged.
   */
  function SumToOne(h: seq<real>): (n: seq<real>)
    ensures |n| == |h|
    ensures SumR(h) == 0.0 ==> n == h
    ensures SumR(h) != 0.0 ==> SumR(n) == 1.0
    ensures SumR(h) != 0.0 ==> forall i :: 0 <= i < |h| ==> n[i] == h[i] / SumR(h)
    ensures NonNegative(h) ==> NonNegative(n) && SumR(n) <= 1.0
    ensures NonNegative(h) ==> forall i :: 0 <= i < |n| ==> n[i] <= 1.0
  {
    var total := SumR(h);
    if total != 0.0 then
      NormalisedSumIsOne(h);
      if NonNegative(h) then
        NormalisedInUnitRange(h);
        Scale(h, total)
      else Scale(h, total)
    else
      if NonNegative(h) then
        EntriesAtMostSum(h);
        h
      else h
  }

  // ------------------------------------------------------------ quantize

  /** First index read into bin `i` when each bin takes `s` source entries. */
  function RunStart(i: int, s: int): int
  {
    1 + i * (s - 1)
  }

  lemma MulNonNegative(a: int, b: int)
    requires a >= 0 && b >= 0
    ensures a * b >= 0
  {
  }

  /** With scale factor `s = len / newDim` of at least two, the entries read
      into bin `i` lie after `i` and before `len`. */
  lemma RunInside(len: nat, newDim: nat, i: nat)
    requires 0 <= i < newDim && len / newDim >= 2
    ensures var s := len / newDim;
      i < RunStart(i, s) <= RunStart(i + 1, s) <= len && i < len
    ensures RunStart(i + 1, len / newDim) == RunStart(i, len / newDim) + len / newDim - 1
  {
    var s := len / newDim;
    var p, q, r := i * (s - 1), (i + 1) * (s - 1), newDim * (s - 1);
    assert newDim * s + len % newDim == len;
    assert newDim * s <= len;
    assert p - i == i * (s - 2);
    MulNonNegative(i, s - 2);
    assert q == p + (s - 1);
    assert r - q == (newDim - i - 1) * (s - 1);
    MulNonNegative(newDim - i - 1, s - 1);
    assert r == newDim * s - newDim;
  }

  /**
   Bin `i` of the quantized histogram. The read index of the source's loop
   runs on from bin to bin, starting at 1, while the bin itself starts
   from its own old value `h[i]`: bin `i` is `h[i]` plus the `s - 1`
   entries from `1 + i(s-1)`. Entries past the old length are the zeros
   added by the final `resize`.
   */
  function Bin(h: seq<real>, newDim: nat, i: nat): real
    requires i < newDim
  {
    var s := |h| / newDim;
    (if i < |h| then h[i] else 0.0) +
    (if s >= 2 then
       RunInside(|h|, newDim, i);
       SumR(h[RunStart(i, s)..RunStart(i + 1, s)])
     else 0.0)
  }

  /** `quantize(hist, hist.size(), newDim)`. */
  function Quantize(h: seq<real>, newDim: nat): (q: seq<real>)
    ensures |q| == newDim
  {
    seq(newDim, i requires 0 <= i < newDim => Bin(h, newDim, i))
  }

  function Zeros(n: nat): (z: seq<real>)
    ensures |z| == n && forall i :: 0 <= i < n ==> z[i] == 0.0
  {
    seq(n, i => 0.0)
  }

  lemma SumExtend(h: seq<real>, lo: int, k: int)
    requires 0 <= lo <= k < |h|
    ensures SumR(h[lo..k + 1]) == SumR(h[lo..k]) + h[k]
  {
    assert h[lo..k + 1][..k - lo] == h[lo..k];
  }

  /** The inner loop of the source for bin `i`: `hist[i] += hist[k++]`,
      `s - 1` times, starting from `k == RunStart(i, s)`. */
  method AccumulateBin(a: seq<real>, hist: seq<real>, newDim: nat, i: nat, s: nat, k0: nat)
    returns (b: seq<real>, k: nat)
    requires i < newDim && s == |hist| / newDim && s >= 2 && k0 == RunStart(i, s)
    requires |a| == |hist| && forall m :: i <= m < |a| ==> a[m] == hist[m]
    ensures |b| == |a| && k == RunStart(i + 1, s)
    ensures b[i] == Bin(hist, newDim, i)
    ensures forall m :: 0 <= m < |a| && m != i ==> b[m] == a[m]
  {
    RunInside(|hist|, newDim, i);
    b, k := a, k0;
    var j := 0;
    while j < s - 1
      invariant 0 <= j <= s - 1 && |b| == |a|
      invariant k == k0 + j
      invariant b[i] == hist[i] + SumR(hist[k0..k])
      invariant forall m :: 0 <= m < |a| && m != i ==> b[m] == a[m]
    {
      SumExtend(hist, k0, k);
      b := b[i := b[i] + b[k]];
      k := k + 1;
      j := j + 1;
    }
  }

  /** The source's in-place loop: `hist[i] += hist[k++]` for `scalef - 1`
      steps per bin, then `resize(newDim)`. */
  method QuantizeInPlace(hist: seq<real>, newDim: nat) returns (q: seq<real>)
    ensures q == Quantize(hist, newDim)
  {
    var s := if newDim == 0 then 0 else |hist| / newDim;
    var a := hist;
    var k := 1;
    var i := 0;
    while i < newDim
      invariant 0 <= i <= newDim && |a| == |hist|
      invariant s >= 2 ==> k == RunStart(i, s)
      invariant forall m :: 0 <= m < i && m < |a| ==> a[m] == Bin(hist, newDim, m)
      invariant forall m :: i <= m < |a| ==> a[m] == hist[m]
    {
      // With `scalef - 1 <= 0` the inner loop of the source does nothing.
      if s >= 2 {
        RunInside(|hist|, newDim, i);
        a, k := AccumulateBin(a, hist, newDim, i, s, k);
      } else if i < |a| {
        assert a[i] == Bin(hist, newDim, i);
      }
      i := i + 1;
    }
    q := Resize(a, newDim);
    ResizedBins(a, hist, newDim);
  }

  /** `resize(newDim)`: truncation, or padding with zeros. */
  function Resize(a: seq<real>, newDim: nat): (r: seq<real>)
    ensures |r| == newDim
    ensures forall m :: 0 <= m < newDim ==> r[m] == if m < |a| then a[m] else 0.0
  {
    if newDim <= |a| then a[..newDim] else a + Zeros(newDim - |a|)
  }

  lemma ResizedBins(a: seq<real>, hist: seq<real>, newDim: nat)
    requires |a| == |hist|
    requires forall m :: 0 <= m < newDim && m < |a| ==> a[m] == Bin(hist, newDim, m)
    ensures Resize(a, newDim) == Quantize(hist, newDim)
  {
    forall m | 0 <= m < newDim ensures Resize(a, newDim)[m] == Bin(hist, newDim, m) {
      if m >= |a| {
        DivOfSmaller(|hist|, newDim);
      }
    }
  }

  /** With fewer than two entries per bin the inner loop never runs and only
      the final resize acts: the histogram is cut or padded with zeros. */
  lemma QuantizeOnlyResizes(h: seq<real>, newDim: nat)
    requires |h| < 2 * newDim
    ensures Quantize(h, newDim) == Resize(h, newDim)
  {
    var s := |h| / newDim;
    assert newDim * s + |h| % newDim == |h|;
    assert s < 2;
    var q := Quantize(h, newDim);
    forall i | 0 <= i < newDim ensures q[i] == Resize(h, newDim)[i] {
      assert q[i] == Bin(h, newDim, i);
    }
  }

  lemma DivOfSmaller(a: int, b: int)
    requires 0 <= a < b
    ensures a / b == 0
  {
  }

  /** Every index read lies inside the old histogram. */
  lemma QuantizeReadsInside(len: nat, newDim: nat)
    requires newDim >= 1 && len / newDim >= 2
    ensures RunStart(newDim, len / newDim) <= len
  {
    RunInside(len, newDim, newDim - 1);
  }

  /** The first bin is exactly the first `s` source entries. */
  lemma FirstBinIsPrefix(h: seq<real>, newDim: nat)
    requires 1 <= newDim <= |h|
    ensures Quantize(h, newDim)[0] == SumR(h[..|h| / newDim])
  {
    var s := |h| / newDim;
    assert s >= 1;
    if s >= 2 {
      RunInside(|h|, newDim, 0);
      SumSplit(h, 0, 1, s);
      assert h[0..1][..0] == [];
      assert h[0..s] == h[..s];
    } else {
      assert h[..1][..0] == [];
    }
  }

  /** With `s >= 2`, bin `i` of a constant histogram adds up `s` copies. */
  lemma BinConstant(h: seq<real>, newDim: nat, c: real, i: nat)
    requires i < newDim <= |h|
    requires forall j :: 0 <= j < |h| ==> h[j] == c
    ensures Bin(h, newDim, i) == (|h| / newDim) as real * c
  {
    var s := |h| / newDim;
    assert s >= 1 by {
      assert newDim * 1 <= |h|;
    }
    assert i < |h|;
    if s >= 2 {
      RunInside(|h|, newDim, i);
      var run := h[RunStart(i, s)..RunStart(i + 1, s)];
      SumConstant(run, c);
      assert |run| == s - 1;
      assert c + (s - 1) as real * c == s as real * c;
    }
  }

  /** Every bin adds up exactly `s` entries, so a constant histogram stays
      constant: each bin is `s` times the common value. */
  lemma QuantizeConstant(h: seq<real>, newDim: nat, c: real)
    requires 1 <= newDim <= |h|
    requires forall i :: 0 <= i < |h| ==> h[i] == c
    ensures forall i :: 0 <= i < newDim ==>
      Quantize(h, newDim)[i] == (|h| / newDim) as real * c
  {
    forall i | 0 <= i < newDim ensures Quantize(h, newDim)[i] == (|h| / newDim) as real * c {
      BinConstant(h, newDim, c, i);
    }
  }

  /** A hundred entries of 0.01 reduced to five bins: five bins of 0.2. */
  lemma HundredUniformEntriesToFiveBins()
    ensures Quantize(seq(100, i => 0.01), 5) == seq(5, i => 0.2)
  {
    QuantizeConstant(seq(100, i => 0.01), 5, 0.01);
  }

  lemma SumSingle(v: real)
    ensures SumR([v]) == v
  {
    assert [v][..0] == [];
  }

  lemma FirstOverlappingBin()
    ensures Bin([0.0, 1.0, 0.0, 0.0], 2, 0) == 1.0
  {
    var h := [0.0, 1.0, 0.0, 0.0];
    assert |h| / 2 == 2;
    assert h[RunStart(0, 2)..RunStart(1, 2)] == [1.0];
    SumSingle(1.0);
  }

  lemma SecondOverlappingBin()
    ensures Bin([0.0, 1.0, 0.0, 0.0], 2, 1) == 1.0
  {
    var h := [0.0, 1.0, 0.0, 0.0];
    assert |h| / 2 == 2;
    assert h[RunStart(1, 2)..RunStart(2, 2)] == [0.0];
    SumSingle(0.0);
  }

  /** Bin 0 of [0, 1, 0, 0] in two bins reads entries 0 and 1; bin 1
      starts from its own entry 1 and reads entry 2. */
  lemma OverlappingBins()
    ensures Quantize([0.0, 1.0, 0.0, 0.0], 2) == [1.0, 1.0]
  {
    FirstOverlappingBin();
    SecondOverlappingBin();
    var q := Quantize([0.0, 1.0, 0.0, 0.0], 2);
    assert q[0] == 1.0 && q[1] == 1.0;
  }

  lemma SumOfSmallHistograms()
    ensures SumR([0.0, 1.0, 0.0, 0.0]) == 1.0
    ensures SumR([1.0, 1.0]) == 2.0
  {
    assert [0.0, 1.0, 0.0, 0.0][..3] == [0.0, 1.0, 0.0];
    assert [0.0, 1.0, 0.0][..2] == [0.0, 1.0];
    assert [0.0, 1.0][..1] == [0.0];
    assert [0.0][..0] == [];
    assert [1.0, 1.0][..1] == [1.0];
    assert [1.0][..0] == [];
  }

  /** The bins overlap: entry 1 is counted in bin 0 and again as the start
      of bin 1, so the total mass is not preserved. */
  lemma QuantizeDoesNotPreserveMass()
    ensures Quantize([0.0, 1.0, 0.0, 0.0], 2) == [1.0, 1.0]
    ensures SumR([0.0, 1.0, 0.0, 0.0]) == 1.0
    ensures SumR(Quantize([0.0, 1.0, 0.0, 0.0], 2)) == 2.0
  {
    OverlappingBins();
    SumOfSmallHistograms();
  }

  /** On a non-negative histogram each bin lies between zero and the total. */
  lemma BinWithinTotal(h: seq<real>, newDim: nat, i: nat)
    requires NonNegative(h) && i < newDim
    ensures 0.0 <= Quantize(h, newDim)[i] <= SumR(h)
  {
    var s := |h| / newDim;
    SumNonNegative(h);
    if s >= 2 {
      RunInside(|h|, newDim, i);
      var lo, hi := RunStart(i, s), RunStart(i + 1, s);
      SumSplit(h, i, i + 1, lo);
      SumSplit(h, i, lo, hi);
      assert h[i..i + 1] == [h[i]];
      assert [h[i]][..0] == [];
      SliceAtMostSum(h, i + 1, lo);
      SliceAtMostSum(h, lo, hi);
      SliceAtMostSum(h, i, hi);
    } else if i < |h| {
      ElementAtMostSum(h, i);
    }
  }

  // ---------------------------------------------------------- histograms

  type Mask = seq<seq<bool>>

  function Cols(m: Mask): nat
  {
    if |m| == 0 then 0 else |m[0]|
  }

  predicate Rectangular(m: Mask)
  {
    forall r :: 0 <= r < |m| ==> |m[r]| == Cols(m)
  }

  /** `countNonZero` of a row or column. */
  function CountTrue(cells: seq<bool>): nat
  {
    if |cells| == 0 then 0
    else CountTrue(cells[..|cells| - 1]) + (if cells[|cells| - 1] then 1 else 0)
  }

  function Lit(cells: seq<bool>): set<int>
  {
    set j | 0 <= j < |cells| && cells[j]
  }

  /** The count is the number of foreground cells. */
  lemma {:induction false} CountTrueIsCardinality(cells: seq<bool>)
    ensures CountTrue(cells) == |Lit(cells)|
    decreases |cells|
  {
    if |cells| > 0 {
      var n := |cells| - 1;
      var front := cells[..n];
      CountTrueIsCardinality(front);
      if cells[n] {
        assert Lit(cells) == Lit(front) + {n};
      } else {
        assert Lit(cells) == Lit(front);
      }
    }
  }

  function Column(m: Mask, c: nat): seq<bool>
    requires Rectangular(m) && c < Cols(m)
  {
    seq(|m|, r requires 0 <= r < |m| => m[r][c])
  }

  /** `hist_pi`: foreground counts of the `n` whole mask rows from `from`;
      no row is read when `n` is zero. */
  function RowHistogram(m: Mask, from: nat, n: nat): (h: seq<real>)
    requires n == 0 || from + n <= |m|
    ensures |h| == n && NonNegative(h)
    ensures forall i :: 0 <= i < n ==> h[i] == |Lit(m[from + i])| as real
  {
    var h := seq(n, i requires 0 <= i < n => CountTrue(m[from + i]) as real);
    forall i | 0 <= i < n ensures h[i] >= 0.0 && h[i] == |Lit(m[from + i])| as real {
      CountTrueIsCardinality(m[from + i]);
    }
    h
  }

  /** `hist_theta`: foreground counts of the `n` whole mask columns from
      `from`; no column is read when `n` is zero. */
  function ColumnHistogram(m: Mask, from: nat, n: nat): (h: seq<real>)
    requires Rectangular(m) && (n == 0 || from + n <= Cols(m))
    ensures |h| == n && NonNegative(h)
    ensures forall i :: 0 <= i < n ==> h[i] == |set r | 0 <= r < |m| && m[r][from + i]| as real
  {
    var h := seq(n, i requires 0 <= i < n => CountTrue(Column(m, from + i)) as real);
    forall i | 0 <= i < n ensures h[i] >= 0.0 && h[i] == |set r | 0 <= r < |m| && m[r][from + i]| as real {
      var col := Column(m, from + i);
      CountTrueIsCardinality(col);
      assert Lit(col) == set r | 0 <= r < |m| && m[r][from + i];
    }
    h
  }

  /** One half of the descriptor: normalise, then reduce to `newDim` bins. */
  function NormalisedBins(h: seq<real>, newDim: nat): (q: seq<real>)
    requires NonNegative(h)
    ensures |q| == newDim
    ensures forall i :: 0 <= i < newDim ==> 0.0 <= q[i] <= 1.0
  {
    var n := SumToOne(h);
    assert forall i :: 0 <= i < newDim ==> 0.0 <= Quantize(n, newDim)[i] <= 1.0 by {
      forall i | 0 <= i < newDim ensures 0.0 <= Quantize(n, newDim)[i] <= 1.0 {
        BinWithinTotal(n, newDim, i);
      }
    }
    Quantize(n, newDim)
  }

  /** The rows `max(y, 0)` onward and the columns `max(x, 0)` onward that
      `computeFeatureVector` reads, after rounding the box's height and
      width to multiples of ten, lie in the mask; a size that rounds to zero
      reads nothing, wherever the box is. A negative rounded size makes the
      histogram's vector constructor fail. */
  predicate RegionInsideMask(m: Mask, box: Rect)
  {
    && 0 <= RoundToTen(box.height) && 0 <= RoundToTen(box.width)
    && (RoundToTen(box.height) == 0 || Max(box.y, 0) + RoundToTen(box.height) <= |m|)
    && (RoundToTen(box.width) == 0 || Max(box.x, 0) + RoundToTen(box.width) <= Cols(m))
  }

  /**
   `computeFeatureVector`: the normalised and quantized row histogram
   followed by the column histogram, `bins / 2` bins each. A region that
   reaches past the mask makes OpenCV's row or column access throw, and a
   negative rounded size makes the vector constructor throw; neither has a
   result here.
   */
  function FeatureVector(m: Mask, box: Rect, bins: nat): (v: Option<seq<real>>)
    requires Rectangular(m)
    ensures v.Some? <==> RegionInsideMask(m, box)
    ensures v.Some? ==> |v.value| == 2 * (bins / 2)
    ensures v.Some? ==> forall i :: 0 <= i < |v.value| ==> 0.0 <= v.value[i] <= 1.0
    ensures v.Some? ==>
      && v.value[..bins / 2] ==
           NormalisedBins(RowHistogram(m, Max(box.y, 0), RoundToTen(box.height)), bins / 2)
      && v.value[bins / 2..] ==
           NormalisedBins(ColumnHistogram(m, Max(box.x, 0), RoundToTen(box.width)), bins / 2)
  {
    if !RegionInsideMask(m, box) then None
    else
      var piSize, thetaSize := RoundToTen(box.height), RoundToTen(box.width);
      var yOffset, xOffset := Max(box.y, 0), Max(box.x, 0);
      Some(NormalisedBins(RowHistogram(m, yOffset, piSize), bins / 2) +
           NormalisedBins(ColumnHistogram(m, xOffset, thetaSize), bins / 2))
  }

  /** `computeFeatureVector2`: the same descriptor over the whole mask. */
  function FeatureVector2(m: Mask, bins: nat): (v: seq<real>)
    requires Rectangular(m)
    ensures |v| == 2 * (bins / 2)
    ensures forall i :: 0 <= i < |v| ==> 0.0 <= v[i] <= 1.0
    ensures v[..bins / 2] == NormalisedBins(RowHistogram(m, 0, |m|), bins / 2)
    ensures v[bins / 2..] == NormalisedBins(ColumnHistogram(m, 0, Cols(m)), bins / 2)
  {
    NormalisedBins(RowHistogram(m, 0, |m|), bins / 2) + NormalisedBins(ColumnHistogram(m, 0, Cols(m)), bins / 2)
  }

  /** On a mask whose sides are multiples of ten, the whole-mask descriptor
      is the descriptor of the box covering the mask. */
  lemma WholeMaskIsCoveringBox(m: Mask, bins: nat)
    requires Rectangular(m) && |m| % 10 == 0 && Cols(m) % 10 == 0
    ensures FeatureVector(m, Rect(0, 0, Cols(m), |m|), bins) == Some(FeatureVector2(m, bins))
  {
    RoundToTenFixesMultiples(|m|);
    RoundToTenFixesMultiples(Cols(m));
  }

  /** A box whose height rounds to zero reads no row, so its descriptor is
      defined even when the box lies below a two-row mask, and its row half
      is all zeros. */
  lemma ZeroHeightBoxBelowMask(m: Mask)
    requires Rectangular(m) && |m| == 2 && Cols(m) >= 10
    ensures FeatureVector(m, Rect(0, 5, 10, 3), 10).Some?
    ensures FeatureVector(m, Rect(0, 5, 10, 3), 10).value[..5] == Zeros(5)
  {
    assert RoundToTen(3) == 0 && RoundToTen(10) == 10;
    var rows := RowHistogram(m, 5, 0);
    assert rows == [];
    EmptyRegionGivesZeros(rows, 5);
  }

  /** A constant positive histogram normalises to entries of `1 / len`. */
  lemma UniformNormalises(h: seq<real>, c: real)
    requires |h| >= 1 && c > 0.0
    requires forall i :: 0 <= i < |h| ==> h[i] == c
    ensures forall i :: 0 <= i < |h| ==> SumToOne(h)[i] == 1.0 / |h| as real
  {
    SumConstant(h, c);
    CancelFactor(c, |h| as real);
    forall i | 0 <= i < |h| ensures SumToOne(h)[i] == 1.0 / |h| as real {
      UniformEntry(h, c, i);
    }
  }

  lemma UniformEntry(h: seq<real>, c: real, i: nat)
    requires i < |h| && c > 0.0 && h[i] == c
    requires SumR(h) == |h| as real * c && c / (|h| as real * c) == 1.0 / |h| as real
    requires SumR(h) != 0.0
    ensures SumToOne(h)[i] == 1.0 / |h| as real
  {
    assert SumToOne(h)[i] == h[i] / SumR(h);
  }

  lemma CancelFactor(c: real, len: real)
    requires c > 0.0 && len > 0.0
    ensures len * c > 0.0 && len * c != 0.0
    ensures c / (len * c) == 1.0 / len
  {
    var d := len * c;
    assert d > 0.0;
    var u, v := c / d, 1.0 / len;
    assert u * d == c;
    assert v * len == 1.0;
    assert (u * len) * c == u * (len * c);
    assert (u * len - 1.0) * c == 0.0;
    assert u * len == 1.0;
    assert (u - v) * len == 0.0;
  }

  lemma ShareOfWhole(s: nat, newDim: nat, len: nat)
    requires newDim >= 1 && len >= 1 && s * newDim == len
    ensures s as real * (1.0 / len as real) == 1.0 / newDim as real
  {
    assert s as real * newDim as real == len as real;
    var v, w := 1.0 / len as real, 1.0 / newDim as real;
    assert v * len as real == 1.0;
    assert w * newDim as real == 1.0;
    assert (s as real * v) * newDim as real == 1.0;
    assert (s as real * v - w) * newDim as real == 0.0;
  }

  lemma DivExact(len: nat, d: nat)
    requires d >= 1 && len % d == 0
    ensures (len / d) * d == len
  {
  }

  lemma ShareOfDivisor(len: nat, d: nat)
    requires 1 <= d <= len && len % d == 0
    ensures (len / d) as real * (1.0 / len as real) == 1.0 / d as real
  {
    DivExact(len, d);
    ShareOfWhole(len / d, d, len);
  }

  /** Entries of `1 / len` reduced to a divisor `newDim` of `len` give bins
      of `1 / newDim`. */
  lemma SharesToBin(n: seq<real>, newDim: nat, i: nat)
    requires 1 <= newDim <= |n| && |n| % newDim == 0 && i < newDim
    requires forall j :: 0 <= j < |n| ==> n[j] == 1.0 / |n| as real
    ensures Bin(n, newDim, i) == 1.0 / newDim as real
  {
    ShareOfDivisor(|n|, newDim);
    BinIs(n, newDim, 1.0 / |n| as real, i, 1.0 / newDim as real);
  }

  /** `BinConstant` with the value of the bin named by the caller. */
  lemma BinIs(h: seq<real>, newDim: nat, c: real, i: nat, v: real)
    requires i < newDim <= |h|
    requires forall j :: 0 <= j < |h| ==> h[j] == c
    requires v == (|h| / newDim) as real * c
    ensures Bin(h, newDim, i) == v
  {
    BinConstant(h, newDim, c, i);
  }

  /** Bin `i` of the normalised uniform histogram is `1 / newDim`. */
  lemma UniformBin(h: seq<real>, newDim: nat, c: real, i: nat)
    requires 1 <= newDim <= |h| && |h| % newDim == 0 && c > 0.0
    requires forall j :: 0 <= j < |h| ==> h[j] == c
    requires i < newDim
    ensures NormalisedBins(h, newDim)[i] == 1.0 / newDim as real
  {
    var n := SumToOne(h);
    UniformNormalises(h, c);
    SharesToBin(n, newDim, i);
    assert NormalisedBins(h, newDim) == Quantize(n, newDim);
  }

  /** A histogram with every entry equal to a positive count, whose length
      is a multiple of the bin count, becomes `newDim` equal bins of
      `1 / newDim`. */
  lemma UniformHistogramBins(h: seq<real>, newDim: nat, c: real)
    requires 1 <= newDim <= |h| && |h| % newDim == 0 && c > 0.0
    requires forall i :: 0 <= i < |h| ==> h[i] == c
    ensures NormalisedBins(h, newDim) == seq(newDim, i => 1.0 / newDim as real)
  {
    forall i | 0 <= i < newDim ensures NormalisedBins(h, newDim)[i] == 1.0 / newDim as real {
      UniformBin(h, newDim, c, i);
    }
  }

  /** A box 100 pixels high whose rows each hold the same positive count
      gives five bins of 0.2 with the default bin count of ten. */
  lemma UniformHundredRowsFiveBins(h: seq<real>, c: real)
    requires |h| == 100 && c > 0.0
    requires forall i :: 0 <= i < 100 ==> h[i] == c
    ensures NormalisedBins(h, 10 / 2) == [0.2, 0.2, 0.2, 0.2, 0.2]
  {
    UniformHistogramBins(h, 5, c);
    assert 1.0 / 5 as real == 0.2;
    assert seq(5, i => 1.0 / 5 as real) == [0.2, 0.2, 0.2, 0.2, 0.2];
  }

  /**
   A box whose sides round to 100, over rows that each hold the same
   positive number of foreground pixels and columns that each hold the same
   positive number of foreground rows, has the descriptor of ten values
   0.2: a silhouette of even thickness spreads evenly over the bins.
   */
  lemma EvenSilhouetteDescriptor(m: Mask, box: Rect, c: nat, d: nat)
    requires Rectangular(m) && c > 0 && d > 0
    requires RoundToTen(box.height) == 100 && RoundToTen(box.width) == 100
    requires Max(box.y, 0) + 100 <= |m| && Max(box.x, 0) + 100 <= Cols(m)
    requires forall r :: Max(box.y, 0) <= r < Max(box.y, 0) + 100 ==> |Lit(m[r])| == c
    requires forall k :: Max(box.x, 0) <= k < Max(box.x, 0) + 100 ==> |Lit(Column(m, k))| == d
    ensures FeatureVector(m, box, 10) ==
      Some([0.2, 0.2, 0.2, 0.2, 0.2, 0.2, 0.2, 0.2, 0.2, 0.2])
  {
    var y0, x0 := Max(box.y, 0), Max(box.x, 0);
    var rows := RowHistogram(m, y0, 100);
    var cols := ColumnHistogram(m, x0, 100);
    forall i | 0 <= i < 100 ensures rows[i] == c as real {
      assert |Lit(m[y0 + i])| == c;
    }
    forall i | 0 <= i < 100 ensures cols[i] == d as real {
      assert Lit(Column(m, x0 + i)) == set r | 0 <= r < |m| && m[r][x0 + i];
      assert |Lit(Column(m, x0 + i))| == d;
    }
    UniformHundredRowsFiveBins(rows, c as real);
    UniformHundredRowsFiveBins(cols, d as real);
    assert RegionInsideMask(m, box);
    var v := FeatureVector(m, box, 10).value;
    assert v[..5] == NormalisedBins(rows, 5) && v[5..] == NormalisedBins(cols, 5);
    TenFifths(v);
  }

  lemma TenFifths(v: seq<real>)
    requires |v| == 10
    requires v[..5] == [0.2, 0.2, 0.2, 0.2, 0.2] && v[5..] == [0.2, 0.2, 0.2, 0.2, 0.2]
    ensures v == [0.2, 0.2, 0.2, 0.2, 0.2, 0.2, 0.2, 0.2, 0.2, 0.2]
  {
    assert v == v[..5] + v[5..];
  }

  /** An empty region gives an all-zero half: nothing is divided by zero. */
  lemma EmptyRegionGivesZeros(h: seq<real>, newDim: nat)
    requires forall i :: 0 <= i < |h| ==> h[i] == 0.0
    ensures NormalisedBins(h, newDim) == Zeros(newDim)
  {
    SumConstant(h, 0.0);
    var q := NormalisedBins(h, newDim);
    forall i | 0 <= i < newDim ensures q[i] == 0.0 {
      BinWithinTotal(h, newDim, i);
    }
  }
}

=== FILE: geometry.dfy ===
/**
 Integer geometry shared by the tracker: OpenCV's `cv::Rect` with its
 intersection operator, the inclusive bounds test and the sign function of
 the frame analyser's header, and C++ integer division by two.
 */
module Geometry {

  /** Every input frame is resized to this standard resolution. */
  const FrameWidth: int := 640
  const FrameHeight: int := 480

  datatype Option<T> = None | Some(value: T)

  datatype Point = Point(x: int, y: int)

  /** `cv::Rect`: top-left corner, width and height. */
  datatype Rect = Rect(x: int, y: int, width: int, height: int)

  /** The default-constructed `cv::Rect()`. */
  const EmptyRect: Rect := Rect(0, 0, 0, 0)

  function Area(r: Rect): int
  {
    r.width * r.height
  }

  function Max(a: int, b: int): int { if a < b then b else a }

  function Min(a: int, b: int): int { if a < b then a else b }

  function Abs(v: int): nat { if v < 0 then -v else v }

  /** The header's `IsInBounds`, written with `<` only as the template is. */
  predicate IsInBounds(v: int, lo: int, hi: int)
    ensures IsInBounds(v, lo, hi) <==> lo <= v && v <= hi
  {
    !(v < lo) && !(hi < v)
  }

  /** The header's `sign`: the difference of two boolean tests. */
  function Sign(v: int): (s: int)
    ensures s == 1 <==> v > 0
    ensures s == 0 <==> v == 0
    ensures s == -1 <==> v < 0
  {
    (if 0 < v then 1 else 0) - (if v < 0 then 1 else 0)
  }

  lemma SignIsOdd(v: int)
    ensures Sign(-v) == -Sign(v)
    ensures Sign(v) * Abs(v) == v
  {
  }

  /** C++ `v / 2` on `int`, which truncates toward zero. */
  function Half(v: int): (h: int)
    ensures v >= 0 ==> 0 <= v - 2 * h <= 1
    ensures v < 0 ==> -1 <= v - 2 * h <= 0
  {
    if v >= 0 then v / 2 else -((-v) / 2)
  }

  /** `a & b` of OpenCV 2.x: the overlap, or `Rect()` when it is empty. */
  function Intersect(a: Rect, b: Rect): (r: Rect)
    ensures r == EmptyRect || (r.width > 0 && r.height > 0)
    ensures r != EmptyRect ==>
      a.x <= r.x && b.x <= r.x && r.x + r.width <= a.x + a.width && r.x + r.width <= b.x + b.width &&
      a.y <= r.y && b.y <= r.y && r.y + r.height <= a.y + a.height && r.y + r.height <= b.y + b.height
    ensures (&& a.width > 0 && a.height > 0 && b.width > 0 && b.height > 0
             && a.x < b.x + b.width && b.x < a.x + a.width
             && a.y < b.y + b.height && b.y < a.y + a.height) ==> r != EmptyRect
  {
    var x1 := Max(a.x, b.x);
    var y1 := Max(a.y, b.y);
    var w := Min(a.x + a.width, b.x + b.width) - x1;
    var h := Min(a.y + a.height, b.y + b.height) - y1;
    if w <= 0 || h <= 0 then EmptyRect else Rect(x1, y1, w, h)
  }

  /** The candidate filter's test `(r & s) == r`. */
  predicate InsideOf(r: Rect, s: Rect)
  {
    Intersect(r, s) == r
  }

  /** For a box with positive extent, the test is geometric containment;
      the empty `Rect()` passes it against every box, and any other box
      without extent passes it against none. */
  lemma InsideOfIsContainment(r: Rect, s: Rect)
    ensures r.width > 0 && r.height > 0 ==>
      (InsideOf(r, s) <==>
        s.x <= r.x && s.y <= r.y &&
        r.x + r.width <= s.x + s.width && r.y + r.height <= s.y + s.height)
    ensures r == EmptyRect ==> InsideOf(r, s)
    ensures r != EmptyRect && (r.width <= 0 || r.height <= 0) ==> !InsideOf(r, s)
  {
  }
}

=== FILE: legacy.dfy ===
/**
 The older per-frame loop of main.cpp (`processVideo`). It computes the
 motion centroid, the detector window and the fused box like the frame
 analyser, but it runs the detector on every frame, keeps no tracker state
 (nothing is shown on a frame without a surviving candidate), and its
 search for the largest contour runs over ALL contours while the index it
 finds is used in the list of in-bounds centroids only.
 */
module Legacy {
  import opened Geometry
  import opened Motion
  import opened Detection
  import Tracker

  function AllTwiceAreas(blobs: seq<Blob>): (ts: seq<nat>)
    ensures |ts| == |blobs| && forall i :: 0 <= i < |blobs| ==> ts[i] == blobs[i].twiceArea
  {
    seq(|blobs|, i requires 0 <= i < |blobs| => blobs[i].twiceArea)
  }

  datatype LegacyCentroid =
    | NoFrameContours
      /** The index of the largest contour is past the end of the list of
          in-bounds centroids: the source reads out of range. */
    | OutOfRange
    | At(p: Point)

  /** The centroid as main.cpp computes it. */
  function LegacyMotionCentroid(blobs: seq<Blob>): (m: LegacyCentroid)
    ensures m.NoFrameContours? <==> |blobs| == 0
    ensures m.OutOfRange? <==> |blobs| > 0 && LargestScan(AllTwiceAreas(blobs)).0 >= |InBounds(blobs)|
    ensures |blobs| > 0 && (forall i :: 0 <= i < |blobs| ==> CentroidInFrame(blobs[i])) ==>
      m.At? && MotionCentroid(blobs) == Centroid(m.p)
  {
    if |blobs| == 0 then NoFrameContours
    else
      var kept := InBounds(blobs);
      assert (forall i :: 0 <= i < |blobs| ==> CentroidInFrame(blobs[i])) ==>
        TwiceAreas(kept) == AllTwiceAreas(blobs);
      var k := LargestScan(AllTwiceAreas(blobs)).0;
      if k >= |kept| then OutOfRange
      else
        var weighted := kept[k];
        At(Point(WeightedMean(Xs(kept), weighted.x, |blobs|),
                 WeightedMean(Ys(kept), weighted.y, |blobs|)))
  }

  /** A kept contour of area 1 at (100, 100) and a larger one, of area 10,
      whose centroid is outside the frame. */
  function TwoContours(): seq<Blob>
  {
    [Blob(Some(RealPoint(100.0, 100.0)), 2), Blob(Some(RealPoint(-10.0, -10.0)), 20)]
  }

  lemma TwoContoursKept()
    ensures InBounds(TwoContours()) == [Kept(100, 100, 2)]
  {
    var a, b := TwoContours()[0], TwoContours()[1];
    assert !CentroidInFrame(b);
    InBoundsPair(a, b);
    assert KeepOf(a) == Kept(100, 100, 2);
  }

  /** The index found is 1, but only one centroid was kept. */
  lemma LargestOutsideReadsOutOfRange()
    ensures LegacyMotionCentroid(TwoContours()) == OutOfRange
  {
    TwoContoursKept();
    assert AllTwiceAreas(TwoContours()) == [2, 20];
    assert [2, 20][..1] == [2] && [2][..0] == [];
    assert LargestScan([2, 20]).0 == 1;
  }

  /** The frame analyser weights the only kept contour instead. */
  lemma LargestOutsideIgnoredByAnalyser()
    ensures MotionCentroid(TwoContours()) == Centroid(Point(75, 75))
  {
    TwoContoursKept();
    OneKeptCentroid(TwoContours(), Kept(100, 100, 2), 4);
    QuarterOfTripleHundred();
  }

  /** Three contours, the largest of them (area 10) outside the frame, then
      kept ones of area 1 at (100, 100) and of area 2 at (200, 200). */
  function ThreeContours(): seq<Blob>
  {
    [Blob(Some(RealPoint(-10.0, -10.0)), 20), Blob(Some(RealPoint(100.0, 100.0)), 2),
     Blob(Some(RealPoint(200.0, 200.0)), 4)]
  }

  lemma ThreeContoursKept()
    ensures InBounds(ThreeContours()) == [Kept(100, 100, 2), Kept(200, 200, 4)]
  {
    var blobs := ThreeContours();
    var a, b := blobs[0], blobs[1];
    assert !CentroidInFrame(a);
    assert blobs[..2] == [a, b] && [a, b][..1] == [a] && [a][..0] == [];
    assert InBounds([a]) == [];
    assert InBounds([a, b]) == [Kept(100, 100, 2)];
  }

  lemma SumOfTwoCoordinates()
    ensures SumInts([100, 200]) == 300
  {
    assert [100, 200][..1] == [100] && [100][..0] == [];
  }

  /** Weighting (100, 100) or (200, 200) among the two kept contours, over
      three contours in all. */
  lemma ThreeContoursMeans()
    ensures WeightedMean([100, 200], 100, 3) == 100
    ensures WeightedMean([100, 200], 200, 3) == 140
  {
    SumOfTwoCoordinates();
    U32Identity(500);
    U32Identity(700);
  }

  lemma LargestOfAll()
    ensures LargestScan([20, 2, 4]).0 == 0
  {
    assert [20, 2, 4][..2] == [20, 2] && [20, 2][..1] == [20] && [20][..0] == [];
  }

  lemma LargestOfKept()
    ensures LargestScan([2, 4]).0 == 1
  {
    assert [2, 4][..1] == [2] && [2][..0] == [];
  }

  /** The weight goes to the wrong contour: the largest contour is outside
      the frame, and its index 0 selects the first KEPT centroid, (100, 100),
      rather than the largest kept one, (200, 200). */
  lemma WeightOnWrongContour()
    ensures LegacyMotionCentroid(ThreeContours()) == At(Point(100, 100))
  {
    var kept := [Kept(100, 100, 2), Kept(200, 200, 4)];
    ThreeContoursKept();
    assert AllTwiceAreas(ThreeContours()) == [20, 2, 4];
    LargestOfAll();
    assert Xs(kept) == [100, 200] && Ys(kept) == [100, 200];
    ThreeContoursMeans();
  }

  /** The frame analyser weights the largest kept contour instead. */
  lemma WeightOnLargestKeptContour()
    ensures MotionCentroid(ThreeContours()) == Centroid(Point(140, 140))
  {
    var kept := [Kept(100, 100, 2), Kept(200, 200, 4)];
    ThreeContoursKept();
    assert TwiceAreas(kept) == [2, 4];
    LargestOfKept();
    assert Xs(kept) == [100, 200] && Ys(kept) == [100, 200];
    ThreeContoursMeans();
  }

  /** The outcome of one legacy frame: undefined after an out-of-range read,
      otherwise the detector window and the fused box, if any. */
  datatype LegacyTick = Undefined | Tick(crop: Crop, box: Option<Rect>)

  /**
   One iteration of `processVideo`. The centroid variables are not
   initialised on a frame without contours; their indeterminate value is
   the parameter `indeterminate`. The detector's boxes are the input
   `candidates`.
   */
  function LegacyFrame(prev: Crop, blobs: seq<Blob>, candidates: seq<Rect>, indeterminate: Point)
    : (t: LegacyTick)
    ensures t.Undefined? <==> LegacyMotionCentroid(blobs).OutOfRange?
    ensures t.Tick? ==> (t.box.Some? <==> |FilterContained(candidates)| > 0)
    ensures t.Tick? && t.box.Some? ==>
      var c := if |blobs| == 0 then indeterminate else LegacyMotionCentroid(blobs).p;
      exists k :: IsFirstClosest(FilterContained(candidates), c, k) &&
                  t.box.value == FilterContained(candidates)[k]
    ensures t.Tick? && |blobs| == 0 ==> t.crop == prev
    ensures t.Tick? && |blobs| > 0 ==> LegacyMotionCentroid(blobs).At?
    ensures t.Tick? && LegacyMotionCentroid(blobs).At? ==>
      var p := LegacyMotionCentroid(blobs).p;
      if IsInBounds(p.x, 0, FrameWidth) && IsInBounds(p.y, 0, FrameHeight) then
        t.crop.Window? && t.crop.left == Max(p.x - RoiHalfWidth, 0) &&
        t.crop.left + t.crop.width == Min(p.x + RoiHalfWidth, FrameWidth)
      else t.crop == prev
  {
    var m := LegacyMotionCentroid(blobs);
    if m.OutOfRange? then Undefined
    else
      var centroid := if m.At? then m.p else indeterminate;
      var crop := if m.At? then UpdateCrop(prev, m.p) else prev;
      var f := FilterContained(candidates);
      Tick(crop, if |f| > 0 then Some(f[Closest(f, centroid)]) else None)
  }

  /** Without tracker state, the legacy box is what the frame analyser's
      tracker adopts on a detection frame, whatever it tracked before. */
  lemma LegacyBoxIsTrackerDetection(prev: Crop, blobs: seq<Blob>, candidates: seq<Rect>,
                                    indeterminate: Point, t: Tracker.Track, pos: int)
    requires Tracker.IsDetectionFrame(pos)
    requires LegacyFrame(prev, blobs, candidates, indeterminate).Tick?
    ensures var c := if |blobs| == 0 then indeterminate else LegacyMotionCentroid(blobs).p;
      var r := LegacyFrame(prev, blobs, candidates, indeterminate);
      r.box.Some? ==> Tracker.Step(t, pos, candidates, c).rect == r.box.value
  {
    var c := if |blobs| == 0 then indeterminate else LegacyMotionCentroid(blobs).p;
    var r := LegacyFrame(prev, blobs, candidates, indeterminate);
    if r.box.Some? {
      var f := FilterContained(candidates);
      var k1 :| IsFirstClosest(f, c, k1) && r.box.value == f[k1];
      var k2 :| IsFirstClosest(f, c, k2) && Tracker.Step(t, pos, candidates, c).rect == f[k2];
      FirstClosestUnique(f, c, k1, k2);
    }
  }
}

=== FILE: motion.dfy ===
/**
 Motion centroid and region of interest of one frame (FrameAnalyzer.cpp,
 `processFrame`, the part between contour extraction and detection).

 The contours themselves and their moments come from OpenCV and are inputs
 here: each contour is given by its centroid `m10/m00, m01/m00` (absent when
 `m00` is zero and the division yields a NaN or an infinity) and by its
 area. A contour whose vertices are pixel coordinates has an area that is a
 multiple of one half, so the area is carried as the natural number
 `twiceArea`; this keeps exact the source's truncation of that area to an
 `int` when it remembers the largest one.
 */
module Motion {
  import opened Geometry

  datatype RealPoint = RealPoint(x: real, y: real)

  datatype Blob = Blob(centroid: Option<RealPoint>, twiceArea: nat)

  /** A contour that passed the bounds test: its centroid as stored in the
      `vector<int>` of centroids, and its area. */
  datatype Kept = Kept(x: int, y: int, twiceArea: nat)

  /** Weight of the largest contour in the average. */
  const LargestContourWeight: nat := 3

  /** Half-width of the horizontal window handed to the detector. */
  const RoiHalfWidth: int := 125

  /** The conversion `int(d)` of a finite double: truncation toward zero. */
  function Trunc(d: real): (t: int)
    ensures d >= 0.0 ==> t as real <= d < t as real + 1.0
    ensures d < 0.0 ==> t as real - 1.0 < d <= t as real
  {
    if d >= 0.0 then d.Floor else -((-d).Floor)
  }

  /** The bounds test on the truncated centroid, inclusive at both ends. */
  predicate CentroidInFrame(b: Blob)
  {
    && b.centroid.Some?
    && IsInBounds(Trunc(b.centroid.value.x), 0, FrameWidth)
    && IsInBounds(Trunc(b.centroid.value.y), 0, FrameHeight)
  }

  /** Because of the truncation toward zero, a centroid is kept exactly when
      it lies in the open box (-1, 641) x (-1, 481). */
  lemma CentroidInFrameIff(b: Blob)
    ensures CentroidInFrame(b) <==>
      b.centroid.Some? &&
      -1.0 < b.centroid.value.x < 641.0 && -1.0 < b.centroid.value.y < 481.0
  {
  }

  function KeepOf(b: Blob): Kept
    requires CentroidInFrame(b)
  {
    Kept(Trunc(b.centroid.value.x), Trunc(b.centroid.value.y), b.twiceArea)
  }

  function CountInFrame(blobs: seq<Blob>): nat
  {
    if |blobs| == 0 then 0
    else CountInFrame(blobs[..|blobs| - 1]) + (if CentroidInFrame(blobs[|blobs| - 1]) then 1 else 0)
  }

  /** The contours that pass the bounds test, in their original order. */
  function InBounds(blobs: seq<Blob>): (kept: seq<Kept>)
    ensures |kept| == CountInFrame(blobs) <= |blobs|
    ensures forall k :: 0 <= k < |kept| ==>
      0 <= kept[k].x <= FrameWidth && 0 <= kept[k].y <= FrameHeight
    ensures |kept| > 0 <==> exists i :: 0 <= i < |blobs| && CentroidInFrame(blobs[i])
    ensures (forall i :: 0 <= i < |blobs| ==> CentroidInFrame(blobs[i])) ==>
      |kept| == |blobs| && forall i :: 0 <= i < |blobs| ==> kept[i] == KeepOf(blobs[i])
    decreases |blobs|
  {
    if |blobs| == 0 then []
    else
      var front := blobs[..|blobs| - 1];
      var rest := InBounds(front);
      assert forall i :: 0 <= i < |front| ==> front[i] == blobs[i];
      var b := blobs[|blobs| - 1];
      if CentroidInFrame(b) then rest + [KeepOf(b)] else rest
  }

  /** Every passing contour is in the kept list, at the position given by
      the number of passing contours before it: the kept list is the
      passing contours' centroids, in order, whatever fails in between. */
  lemma {:induction false} InBoundsPositions(blobs: seq<Blob>)
    ensures forall i :: 0 <= i < |blobs| && CentroidInFrame(blobs[i]) ==>
      CountInFrame(blobs[..i]) < |InBounds(blobs)| &&
      InBounds(blobs)[CountInFrame(blobs[..i])] == KeepOf(blobs[i])
    decreases |blobs|
  {
    if |blobs| > 0 {
      var n := |blobs| - 1;
      var front := blobs[..n];
      InBoundsPositions(front);
      forall i | 0 <= i < |blobs| && CentroidInFrame(blobs[i])
        ensures CountInFrame(blobs[..i]) < |InBounds(blobs)|
        ensures InBounds(blobs)[CountInFrame(blobs[..i])] == KeepOf(blobs[i])
      {
        if i < n {
          assert blobs[..i] == front[..i];
          assert front[i] == blobs[i];
        } else {
          assert blobs[..i] == front;
        }
      }
    }
  }

  /** Twice the areas of the kept contours. */
  function TwiceAreas(kept: seq<Kept>): (ts: seq<nat>)
    ensures |ts| == |kept| && forall i :: 0 <= i < |kept| ==> ts[i] == kept[i].twiceArea
  {
    seq(|kept|, i requires 0 <= i < |kept| => kept[i].twiceArea)
  }

  function HalfArea(t: nat): real
  {
    t as real / 2.0
  }

  /**
   The search for the largest contour: the pair (`largestContourIndex`,
   `largestArea`) after looking at the areas `ts`, starting from (-1, -1).
   The stored area is truncated to an integer, so a contour whose area is
   equal to a half-integer maximum still replaces it; the index found is
   always one of maximal area, and the first such one when every area is
   a whole number.
   */
  function LargestScan(ts: seq<nat>): (r: (int, int))
    ensures |ts| == 0 <==> r.0 == -1
    ensures |ts| > 0 ==> 0 <= r.0 < |ts| && r.1 == ts[r.0] / 2
    ensures |ts| > 0 ==> forall j :: 0 <= j < |ts| ==> ts[j] <= ts[r.0]
    ensures |ts| > 0 && (forall j :: 0 <= j < |ts| ==> ts[j] % 2 == 0) ==>
      forall j :: 0 <= j < r.0 ==> ts[j] < ts[r.0]
    decreases |ts|
  {
    if |ts| == 0 then (-1, -1)
    else
      var front := ts[..|ts| - 1];
      var prev := LargestScan(front);
      assert forall j :: 0 <= j < |front| ==> front[j] == ts[j];
      var t := ts[|ts| - 1];
      if HalfArea(t) > prev.1 as real then (|ts| - 1, t / 2) else prev
  }

  /** Half an area exceeds a stored whole number `q` exactly when twice the
      area exceeds `2 * q`. */
  lemma HalfAreaAbove(t: nat, q: int)
    ensures HalfArea(t) > q as real <==> t > 2 * q
  {
  }

  /**
   Which of several contours of maximal area the scan keeps: the first one
   when the maximum is a whole number, since an equal area does not exceed
   it; the last one when the maximum is a half-integer, since its truncated
   copy is exceeded by every later equal area.
   */
  lemma {:induction false} LargestScanTieBreak(ts: seq<nat>)
    requires |ts| > 0
    ensures var k := LargestScan(ts).0;
      && (ts[k] % 2 == 0 ==> forall j :: 0 <= j < k ==> ts[j] < ts[k])
      && (ts[k] % 2 == 1 ==> forall j :: k < j < |ts| ==> ts[j] < ts[k])
    decreases |ts|
  {
    var front := ts[..|ts| - 1];
    var t := ts[|ts| - 1];
    assert forall j :: 0 <= j < |front| ==> front[j] == ts[j];
    if |front| == 0 {
      assert LargestScan(ts).0 == 0;
    } else {
      LargestScanTieBreak(front);
      var prev := LargestScan(front);
      var m := front[prev.0];
      HalfAreaAbove(t, prev.1);
      if t > 2 * prev.1 {
        assert LargestScan(ts).0 == |ts| - 1;
        assert t % 2 == 0 ==> t > m;
      } else {
        assert LargestScan(ts) == prev;
        assert m % 2 == 1 ==> t < m;
      }
    }
  }

  /** Two contours of area 2.5 each: the second one is taken. Areas 2.5
      then 2, or 2 then 2, keep the first. */
  lemma LargestScanTieOnHalfArea()
    ensures LargestScan([5, 5]).0 == 1
    ensures LargestScan([5, 4]).0 == 0
    ensures LargestScan([4, 4]).0 == 0
  {
    assert [5, 5][..1] == [5];
    assert [5, 4][..1] == [5];
    assert [4, 4][..1] == [4];
  }

  function SumInts(s: seq<int>): int
  {
    if |s| == 0 then 0 else SumInts(s[..|s| - 1]) + s[|s| - 1]
  }

  function Xs(kept: seq<Kept>): (xs: seq<int>)
    ensures |xs| == |kept| && forall i :: 0 <= i < |kept| ==> xs[i] == kept[i].x
  {
    seq(|kept|, i requires 0 <= i < |kept| => kept[i].x)
  }

  function Ys(kept: seq<Kept>): (ys: seq<int>)
    ensures |ys| == |kept| && forall i :: 0 <= i < |kept| ==> ys[i] == kept[i].y
  {
    seq(|kept|, i requires 0 <= i < |kept| => kept[i].y)
  }

  /** `uint32_t` arithmetic: the weight is unsigned, so the accumulation
      is carried out modulo 2^32. */
  function U32(v: int): (r: int)
    ensures 0 <= r < 0x1_0000_0000
    ensures (v - r) % 0x1_0000_0000 == 0
    ensures 0 <= v < 0x1_0000_0000 ==> r == v
  {
    v % 0x1_0000_0000
  }

  /** A sum that fits in 32 bits does not wrap. */
  lemma U32Identity(v: int)
    requires 0 <= v < 0x1_0000_0000
    ensures U32(v) == v
  {
  }

  /**
   One coordinate of the centroid: the kept coordinates plus the largest
   contour's counted `LargestContourWeight - 1` more times, divided by the
   number of ALL contours plus `LargestContourWeight - 1`.
   */
  function WeightedMean(values: seq<int>, largest: int, count: nat): (r: int)
    ensures var total := U32(SumInts(values) + (LargestContourWeight - 1) * largest);
      var divisor := count + LargestContourWeight - 1;
      0 <= r && divisor * r <= total < divisor * (r + 1)
  {
    U32(SumInts(values) + (LargestContourWeight - 1) * largest) / (count + LargestContourWeight - 1)
  }

  datatype CentroidOutcome =
    | NoContours
      /** Every centroid failed the bounds test; the source then indexes its
          list of centroids at -1. */
    | NoneInFrame
    | Centroid(p: Point)

  /** The motion centroid of the frame. */
  function MotionCentroid(blobs: seq<Blob>): (m: CentroidOutcome)
    ensures m.NoContours? <==> |blobs| == 0
    ensures m.NoneInFrame? <==> |blobs| > 0 && forall i :: 0 <= i < |blobs| ==> !CentroidInFrame(blobs[i])
  {
    if |blobs| == 0 then NoContours
    else
      var kept := InBounds(blobs);
      if |kept| == 0 then NoneInFrame
      else
        var largest := kept[LargestScan(TwiceAreas(kept)).0];
        Centroid(Point(WeightedMean(Xs(kept), largest.x, |blobs|),
                       WeightedMean(Ys(kept), largest.y, |blobs|)))
  }

  /** The contour given the extra weight is a kept one of maximal area. */
  lemma LargestIsKeptAndMaximal(blobs: seq<Blob>)
    requires exists i :: 0 <= i < |blobs| && CentroidInFrame(blobs[i])
    ensures var kept := InBounds(blobs);
      var k := LargestScan(TwiceAreas(kept)).0;
      0 <= k < |kept| && forall j :: 0 <= j < |kept| ==> kept[j].twiceArea <= kept[k].twiceArea
  {
    var kept := InBounds(blobs);
    var ts := TwiceAreas(kept);
    var k := LargestScan(ts).0;
    assert forall j :: 0 <= j < |kept| ==> ts[j] <= ts[k];
  }

  lemma {:induction false} SumIntsBounds(s: seq<int>, lo: int, hi: int)
    requires forall i :: 0 <= i < |s| ==> lo <= s[i] <= hi
    ensures |s| * lo <= SumInts(s) <= |s| * hi
    decreases |s|
  {
    if |s| > 0 {
      var front := s[..|s| - 1];
      assert forall i :: 0 <= i < |front| ==> front[i] == s[i];
      SumIntsBounds(front, lo, hi);
      assert (|s| - 1) * lo + lo == |s| * lo;
      assert (|s| - 1) * hi + hi == |s| * hi;
    }
  }

  lemma MulCancel(b: int, x: int, y: int)
    requires b > 0 && b * x < b * y
    ensures x < y
  {
    assert b * (y - x) == b * y - b * x;
  }

  lemma MulMonotone(a: int, x: int, y: int)
    requires a >= 0 && x <= y
    ensures a * x <= a * y
  {
    assert a * y - a * x == a * (y - x);
  }

  lemma DivAtMost(a: int, b: int, c: int)
    requires b > 0 && a <= b * c
    ensures a / b <= c
  {
    var q, r := a / b, a % b;
    assert a == b * q + r && 0 <= r;
    assert b * q < b * (c + 1);
    MulCancel(b, q, c + 1);
  }

  lemma DivAtLeast(a: int, b: int, c: int)
    requires b > 0 && b * c <= a
    ensures c <= a / b
  {
    var q, r := a / b, a % b;
    assert a == b * q + r && r < b;
    assert b * c < b * (q + 1);
    MulCancel(b, c, q + 1);
  }

  /**
   A coordinate of the centroid never leaves the range of the kept
   coordinates from above and never goes negative; it stays inside that
   range from below only when no contour was dropped (`count` equal to the
   number of kept values). The bound on `count` rules out the 32-bit
   wrap-around.
   */
  lemma WeightedMeanBounds(values: seq<int>, largest: int, count: nat, lo: int, hi: int)
    requires 0 <= lo <= largest <= hi
    requires forall i :: 0 <= i < |values| ==> lo <= values[i] <= hi
    requires |values| <= count
    requires (count + 2) * hi < 0x1_0000_0000
    ensures 0 <= WeightedMean(values, largest, count) <= hi
    ensures |values| == count ==> lo <= WeightedMean(values, largest, count)
  {
    SumIntsBounds(values, lo, hi);
    var total := SumInts(values) + 2 * largest;
    WeightedTotalBounds(SumInts(values), |values|, largest, count, lo, hi);
    U32Identity(total);
    DivAtMost(total, count + 2, hi);
    DivAtLeast(total, count + 2, 0);
    if |values| == count {
      DivAtLeast(total, count + 2, lo);
    }
  }

  /** The weighted total of `n` values in `[lo, hi]` and the largest one
      counted twice more lies between `n + 2` times each bound. */
  lemma WeightedTotalBounds(sum: int, n: nat, largest: int, count: nat, lo: int, hi: int)
    requires 0 <= lo <= largest <= hi && n <= count
    requires n * lo <= sum <= n * hi
    ensures (n + 2) * lo <= sum + 2 * largest <= (n + 2) * hi <= (count + 2) * hi
    ensures 0 <= sum + 2 * largest
  {
    assert (n + 2) * lo == n * lo + 2 * lo;
    assert (n + 2) * hi == n * hi + 2 * hi;
    MulMonotone(hi, n + 2, count + 2);
    assert n * lo >= 0 by { MulMonotone(n, 0, lo); }
  }

  /** The centroid is always inside the frame (so the crop guard that
      follows it never fails), and it never exceeds the largest kept
      coordinate. */
  lemma CentroidInsideFrame(blobs: seq<Blob>)
    requires |blobs| <= 1_000_000
    ensures var m := MotionCentroid(blobs);
      m.Centroid? ==>
        IsInBounds(m.p.x, 0, FrameWidth) && IsInBounds(m.p.y, 0, FrameHeight)
  {
    var m := MotionCentroid(blobs);
    if m.Centroid? {
      var kept := InBounds(blobs);
      var largest := kept[LargestScan(TwiceAreas(kept)).0];
      WeightedMeanBounds(Xs(kept), largest.x, |blobs|, 0, FrameWidth);
      WeightedMeanBounds(Ys(kept), largest.y, |blobs|, 0, FrameHeight);
    }
  }

  /** With no contour dropped, a mean of coordinates in `[lo, hi]` inside
      the frame's width stays in `[lo, hi]`. */
  lemma MeanBetween(values: seq<int>, largest: int, count: nat, lo: int, hi: int)
    requires |values| == count <= 1_000_000
    requires 0 <= lo <= largest <= hi <= FrameWidth
    requires forall i :: 0 <= i < |values| ==> lo <= values[i] <= hi
    ensures lo <= WeightedMean(values, largest, count) <= hi
  {
    MulMonotone(count + 2, hi, FrameWidth);
    WeightedMeanBounds(values, largest, count, lo, hi);
  }

  /** The kept coordinates of contours that all pass the bounds test lie in
      the given box, clipped to the frame. */
  lemma KeptBetween(blobs: seq<Blob>, lo: Point, hi: Point)
    requires forall i :: 0 <= i < |blobs| ==> CentroidInFrame(blobs[i])
    requires forall i :: 0 <= i < |blobs| ==>
      lo.x <= KeepOf(blobs[i]).x <= hi.x && lo.y <= KeepOf(blobs[i]).y <= hi.y
    ensures var kept := InBounds(blobs);
      && |kept| == |blobs|
      && (forall i :: 0 <= i < |kept| ==> Max(lo.x, 0) <= kept[i].x <= Min(hi.x, FrameWidth))
      && (forall i :: 0 <= i < |kept| ==> Max(lo.y, 0) <= kept[i].y <= Min(hi.y, FrameHeight))
  {
    var kept := InBounds(blobs);
    forall i | 0 <= i < |kept|
      ensures Max(lo.x, 0) <= kept[i].x <= Min(hi.x, FrameWidth)
      ensures Max(lo.y, 0) <= kept[i].y <= Min(hi.y, FrameHeight)
    {
      assert kept[i] == KeepOf(blobs[i]);
    }
  }

  /** When no contour is dropped, each coordinate of the centroid lies
      between the smallest and the largest kept coordinate. */
  lemma CentroidBetweenKept(blobs: seq<Blob>, lo: Point, hi: Point)
    requires 0 < |blobs| <= 1_000_000
    requires forall i :: 0 <= i < |blobs| ==> CentroidInFrame(blobs[i])
    requires forall i :: 0 <= i < |blobs| ==>
      lo.x <= KeepOf(blobs[i]).x <= hi.x && lo.y <= KeepOf(blobs[i]).y <= hi.y
    ensures MotionCentroid(blobs).Centroid?
    ensures lo.x <= MotionCentroid(blobs).p.x <= hi.x
    ensures lo.y <= MotionCentroid(blobs).p.y <= hi.y
  {
    KeptBetween(blobs, lo, hi);
    var kept := InBounds(blobs);
    var k := LargestScan(TwiceAreas(kept)).0;
    var xs, ys := Xs(kept), Ys(kept);
    MeanBetween(xs, kept[k].x, |blobs|, Max(lo.x, 0), Min(hi.x, FrameWidth));
    MeanBetween(ys, kept[k].y, |blobs|, Max(lo.y, 0), Min(hi.y, FrameHeight));
  }

  /** The kept list of two contours, contour by contour. */
  lemma InBoundsPair(a: Blob, b: Blob)
    ensures InBounds([a, b]) ==
      (if CentroidInFrame(a) then [KeepOf(a)] else []) + (if CentroidInFrame(b) then [KeepOf(b)] else [])
  {
    assert [a, b][..1] == [a];
    assert [a][..0] == [];
  }

  lemma SumSingleInt(v: int)
    ensures SumInts([v]) == v
  {
    assert [v][..0] == [];
  }

  lemma LargestOfOne(t: nat)
    ensures LargestScan([t]).0 == 0
  {
    assert [t][..0] == [];
  }

  lemma WeightedMeanOfOne(v: int, count: nat)
    ensures WeightedMean([v], v, count) == U32(3 * v) / (count + 2)
  {
    SumSingleInt(v);
  }

  /** When one contour is kept, it is the largest one, and its coordinates
      are counted three times over the number of all contours plus two. */
  lemma OneKeptCentroid(blobs: seq<Blob>, k: Kept, divisor: int)
    requires |blobs| > 0 && InBounds(blobs) == [k] && divisor == |blobs| + 2
    ensures MotionCentroid(blobs) == Centroid(Point(U32(3 * k.x) / divisor, U32(3 * k.y) / divisor))
  {
    var kept := InBounds(blobs);
    assert TwiceAreas(kept) == [k.twiceArea];
    LargestOfOne(k.twiceArea);
    assert Xs(kept) == [k.x] && Ys(kept) == [k.y];
    WeightedMeanOfOne(k.x, |blobs|);
    WeightedMeanOfOne(k.y, |blobs|);
  }

  lemma ThirdOfTriple(v: int)
    requires 0 <= v <= FrameWidth
    ensures U32(3 * v) / 3 == v
  {
    U32Identity(3 * v);
  }

  /** With a single contour, in bounds, the centroid is that contour's. */
  lemma SingleContourCentroid(b: Blob)
    requires CentroidInFrame(b)
    ensures MotionCentroid([b]) == Centroid(Point(KeepOf(b).x, KeepOf(b).y))
  {
    var k := KeepOf(b);
    assert InBounds([b]) == [k];
    OneKeptCentroid([b], k, 3);
    ThirdOfTriple(k.x);
    ThirdOfTriple(k.y);
  }

  lemma KeepAtHundred(a: Blob)
    requires a == Blob(Some(RealPoint(100.0, 100.0)), 2)
    ensures CentroidInFrame(a) && KeepOf(a) == Kept(100, 100, 2)
  {
    assert Trunc(100.0) == 100;
  }

  lemma KeepFirstOnly(a: Blob, b: Blob)
    requires CentroidInFrame(a) && !CentroidInFrame(b)
    ensures InBounds([a, b]) == [KeepOf(a)]
  {
    InBoundsPair(a, b);
  }

  lemma QuarterOfTripleHundred()
    ensures U32(3 * 100) / 4 == 75
  {
    U32Identity(300);
  }

  /** The divisor counts the dropped contours too: one contour at (100, 100)
      next to one without a centroid gives (75, 75), not (100, 100). */
  lemma DroppedContourDilutesCentroid(a: Blob, degenerate: Blob)
    requires a == Blob(Some(RealPoint(100.0, 100.0)), 2) && degenerate.centroid.None?
    ensures MotionCentroid([a, degenerate]) == Centroid(Point(75, 75))
  {
    KeepAtHundred(a);
    KeepFirstOnly(a, degenerate);
    OneKeptCentroid([a, degenerate], Kept(100, 100, 2), 4);
    QuarterOfTripleHundred();
  }

  datatype Roi = Roi(left: int, right: int)

  /** The detector window around the centroid's abscissa, clamped to the
      frame's horizontal extent. */
  function RoiAround(cx: int): (r: Roi)
    ensures r.left >= 0 && r.left >= cx - RoiHalfWidth
    ensures r.left == 0 || r.left == cx - RoiHalfWidth
    ensures r.right <= FrameWidth && r.right <= cx + RoiHalfWidth
    ensures r.right == FrameWidth || r.right == cx + RoiHalfWidth
    ensures 0 <= cx <= FrameWidth ==>
      0 <= r.left <= cx <= r.right <= FrameWidth && r.right - r.left <= 2 * RoiHalfWidth
    ensures RoiHalfWidth <= cx <= FrameWidth - RoiHalfWidth ==> r.right - r.left == 2 * RoiHalfWidth
  {
    var left := cx - RoiHalfWidth;
    var right := cx + RoiHalfWidth;
    Roi(if left < 0 then 0 else left, if right > FrameWidth then FrameWidth else right)
  }

  /** The image handed to the detector: a blank 250-pixel-wide image until
      the first crop, then a full-height window of the frame. */
  datatype Crop = Blank | Window(left: int, width: int)

  /** The crop is refreshed only when the centroid is inside the frame;
      otherwise the previous one is kept. */
  function UpdateCrop(prev: Crop, c: Point): (crop: Crop)
    ensures IsInBounds(c.x, 0, FrameWidth) && IsInBounds(c.y, 0, FrameHeight) ==>
      crop.Window? && 0 <= crop.left <= c.x <= crop.left + crop.width <= FrameWidth &&
      crop.width <= 2 * RoiHalfWidth &&
      crop.left == Max(c.x - RoiHalfWidth, 0) &&
      crop.left + crop.width == Min(c.x + RoiHalfWidth, FrameWidth)
    ensures !(IsInBounds(c.x, 0, FrameWidth) && IsInBounds(c.y, 0, FrameHeight)) ==> crop == prev
  {
    if IsInBounds(c.x, 0, FrameWidth) && IsInBounds(c.y, 0, FrameHeight) then
      var r := RoiAround(c.x);
      Window(r.left, Abs(r.right - r.left))
    else prev
  }
}

=== FILE: tracker.dfy ===
/**
 The tracker of FrameAnalyzer.cpp: the only state `processFrame` carries
 from one frame to the next is the tracked box `closestRect` and the
 prediction vector `predictionVect`. On a detection frame with at least one
 surviving candidate the box is replaced by the candidate closest to the
 motion centroid and the prediction becomes the sign of the displacement;
 on every other frame the box is moved by the prediction (dead reckoning).

 The box stays in the coordinates of the cropped image: the crop's left
 offset is added only when the box is drawn, and the fusion rule compares
 these crop-local centres with the frame-coordinate centroid.
 */
module Tracker {
  import opened Geometry
  import opened Detection

  datatype Track = Track(rect: Rect, prediction: Point)

  /** A default `cv::Rect` and a zero prediction. */
  const Initial: Track := Track(EmptyRect, Point(0, 0))

  /** The detector runs on one frame in four. */
  const DetectionPeriod: int := 4

  /** The source tests `pos % 4 == 0` with C++'s truncating remainder; it is
      zero exactly when the Euclidean one is, negative positions included. */
  predicate IsDetectionFrame(pos: int)
  {
    pos % DetectionPeriod == 0
  }

  /** Of any four consecutive frames exactly one is a detection frame, and
      the next detection frame comes four frames later. */
  lemma DetectionCadence(pos: int)
    ensures IsDetectionFrame(pos) <==> IsDetectionFrame(pos + DetectionPeriod)
    ensures IsDetectionFrame(pos) ==>
      !IsDetectionFrame(pos + 1) && !IsDetectionFrame(pos + 2) && !IsDetectionFrame(pos + 3)
    ensures IsDetectionFrame(pos) || IsDetectionFrame(pos + 1) ||
      IsDetectionFrame(pos + 2) || IsDetectionFrame(pos + 3)
  {
  }

  predicate IsUnit(p: Point)
  {
    -1 <= p.x <= 1 && -1 <= p.y <= 1
  }

  /** Dead reckoning: the box origin moves by the prediction, its size is
      kept; a zero prediction leaves the state as it is. */
  function DeadReckon(t: Track): (u: Track)
    ensures u.prediction == t.prediction
    ensures u.rect.width == t.rect.width && u.rect.height == t.rect.height
    ensures u.rect.x == t.rect.x + t.prediction.x && u.rect.y == t.rect.y + t.prediction.y
  {
    if t.prediction.x != 0 || t.prediction.y != 0 then
      Track(Rect(t.rect.x + t.prediction.x, t.rect.y + t.prediction.y, t.rect.width, t.rect.height),
            t.prediction)
    else t
  }

  /** A fresh detection replaces the box; the prediction points, axis by
      axis, in the direction the box moved, and is zero on an axis along
      which it did not move. */
  function Adopt(t: Track, found: Rect): (u: Track)
    ensures u.rect == found
    ensures IsUnit(u.prediction)
    ensures u.prediction.x * (found.x - t.rect.x) == Abs(found.x - t.rect.x)
    ensures u.prediction.y * (found.y - t.rect.y) == Abs(found.y - t.rect.y)
    ensures u.prediction.x == 0 <==> found.x == t.rect.x
    ensures u.prediction.y == 0 <==> found.y == t.rect.y
  {
    Track(found, Point(Sign(found.x - t.rect.x), Sign(found.y - t.rect.y)))
  }

  /** The detector ran on this frame and a candidate survived the filter. */
  predicate Fires(pos: int, candidates: seq<Rect>)
  {
    IsDetectionFrame(pos) && |FilterContained(candidates)| > 0
  }

  /** One frame of the tracker, given the frame position, the detector's
      candidates on this frame (ignored off the cadence) and the centroid
      the fusion rule compares them with. */
  function Step(t: Track, pos: int, candidates: seq<Rect>, centroid: Point): (u: Track)
    ensures !Fires(pos, candidates) ==> u == DeadReckon(t)
    ensures Fires(pos, candidates) ==>
      var f := FilterContained(candidates);
      && u.rect in candidates
      && (exists k :: IsFirstClosest(f, centroid, k) && u.rect == f[k])
      && u.prediction == Point(Sign(u.rect.x - t.rect.x), Sign(u.rect.y - t.rect.y))
  {
    if IsDetectionFrame(pos) then
      var f := FilterContained(candidates);
      if |f| > 0 then
        var k := Closest(f, centroid);
        FilteredComeFromCandidates(candidates, k);
        Adopt(t, f[k])
      else DeadReckon(t)
    else DeadReckon(t)
  }

  lemma FilteredComeFromCandidates(candidates: seq<Rect>, k: int)
    requires 0 <= k < |FilterContained(candidates)|
    ensures FilterContained(candidates)[k] in candidates
  {
    var idx := SurvivorIndices(candidates, |candidates|);
    assert FilterContained(candidates)[k] == candidates[idx[k]];
  }

  datatype TickInput = TickInput(pos: int, candidates: seq<Rect>, centroid: Point)

  function Run(t: Track, ticks: seq<TickInput>): Track
    decreases |ticks|
  {
    if |ticks| == 0 then t
    else Run(Step(t, ticks[0].pos, ticks[0].candidates, ticks[0].centroid), ticks[1..])
  }

  /** `k` frames of dead reckoning. */
  function Coast(t: Track, k: nat): Track
    decreases k
  {
    if k == 0 then t else Coast(DeadReckon(t), k - 1)
  }

  /** After `k` frames of dead reckoning the origin has moved by exactly `k`
      times the prediction, and nothing else has changed. */
  lemma {:induction false} CoastMovesLinearly(t: Track, k: nat)
    ensures Coast(t, k) == Track(Rect(t.rect.x + k * t.prediction.x, t.rect.y + k * t.prediction.y,
                                      t.rect.width, t.rect.height), t.prediction)
    decreases k
  {
    if k > 0 {
      CoastMovesLinearly(DeadReckon(t), k - 1);
      assert (k - 1) * t.prediction.x + t.prediction.x == k * t.prediction.x;
      assert (k - 1) * t.prediction.y + t.prediction.y == k * t.prediction.y;
    }
  }

  /** A run of frames on which the detector never yields a survivor is
      pure dead reckoning. */
  lemma {:induction false} RunWithoutDetectionCoasts(t: Track, ticks: seq<TickInput>)
    requires forall i :: 0 <= i < |ticks| ==> !Fires(ticks[i].pos, ticks[i].candidates)
    ensures Run(t, ticks) == Coast(t, |ticks|)
    decreases |ticks|
  {
    if |ticks| > 0 {
      assert !Fires(ticks[0].pos, ticks[0].candidates);
      RunWithoutDetectionCoasts(DeadReckon(t), ticks[1..]);
    }
  }

  /** Until the first successful detection the box keeps the default
      rectangle, whose area is zero, so no feature vector is computed. */
  lemma NoBoxBeforeFirstDetection(ticks: seq<TickInput>)
    requires forall i :: 0 <= i < |ticks| ==> !Fires(ticks[i].pos, ticks[i].candidates)
    ensures Run(Initial, ticks) == Initial
    ensures Area(Run(Initial, ticks).rect) == 0
  {
    RunWithoutDetectionCoasts(Initial, ticks);
    CoastMovesLinearly(Initial, |ticks|);
  }

  /** Started from a unit prediction, the prediction stays a unit step. */
  lemma {:induction false} RunKeepsUnitPrediction(t: Track, ticks: seq<TickInput>)
    requires IsUnit(t.prediction)
    ensures IsUnit(Run(t, ticks).prediction)
    decreases |ticks|
  {
    if |ticks| > 0 {
      RunKeepsUnitPrediction(Step(t, ticks[0].pos, ticks[0].candidates, ticks[0].centroid), ticks[1..]);
    }
  }

  predicate HasExtent(r: Rect)
  {
    r.width >= 0 && r.height >= 0
  }

  /** When the detector never reports a box of negative size, the tracked
      box never has one either, so its area is never negative. */
  lemma {:induction false} RunKeepsExtent(t: Track, ticks: seq<TickInput>)
    requires HasExtent(t.rect)
    requires forall i, j :: 0 <= i < |ticks| && 0 <= j < |ticks[i].candidates| ==>
      HasExtent(ticks[i].candidates[j])
    ensures HasExtent(Run(t, ticks).rect)
    ensures Area(Run(t, ticks).rect) >= 0
    decreases |ticks|
  {
    if |ticks| > 0 {
      var u := Step(t, ticks[0].pos, ticks[0].candidates, ticks[0].centroid);
      assert HasExtent(u.rect);
      RunKeepsExtent(u, ticks[1..]);
    }
    var r := Run(t, ticks).rect;
    assert r.width * r.height >= 0;
  }

  /** A box predicted to move right, with no detection on three frames,
      ends three pixels further right. */
  lemma ThreeCoastingFrames(box: Rect)
    ensures var ticks := [TickInput(1, [], Point(320, 240)), TickInput(2, [], Point(320, 240)),
                          TickInput(3, [], Point(320, 240))];
      Run(Track(box, Point(1, 0)), ticks).rect == Rect(box.x + 3, box.y, box.width, box.height)
  {
    var ticks := [TickInput(1, [], Point(320, 240)), TickInput(2, [], Point(320, 240)),
                  TickInput(3, [], Point(320, 240))];
    RunWithoutDetectionCoasts(Track(box, Point(1, 0)), ticks);
    CoastMovesLinearly(Track(box, Point(1, 0)), 3);
  }
}
